=== FILE: README.md ===
# Spinsolve directory codec (nmrglue `fileio/spinsolve.py`), modelled in Dafny

A Spinsolve benchtop NMR experiment is stored as a directory. It holds text
parameter files (`acqu.par`, `protocol.par`) made of `key = value` lines, and
one binary data file (`data.1d`). The binary file has a 12-byte ASCII tag, a
skipped word, up to four `int32` dimensions and then `float32` words. nmrglue
reads such a directory into a parameter dictionary and a complex numpy array,
and it writes parameter files and binary payloads back.

This project models that codec as pure functions over sequences:

- `PyText`: the Python `str` operations the codec relies on. These are
  `isspace`, `strip`/`rstrip`, `split`/`join` on one character, `ljust` and
  `str(int)`.
- `ParDict`: a Python `dict` with its insertion order. Assignment, a series of
  assignments, `update` and `_merge_dict` are modelled.
- `ParFile`: `read_pars` and `write_pars`. The round trip `read_pars ∘
  write_pars` is proved for every dictionary whose keys are free of
  surrounding whitespace, `=` and newlines, and whose values print back as
  themselves. A key holding `=`, for instance, is written fine but read
  back as a shorter key.
- `Words`: bytes ↔ 32-bit words in either byte order, and two's complement.
- `SpinsolveBinary`: `read_binary` covers the tag check, the dimension words,
  the `size.prod()` prefix skip with 64-bit wrap-around, the stride-2
  de-interleave, numpy broadcasting, `reshape` with dimension inference, and
  Fortran order. The module also holds `write_binary`/`put_data` as written,
  and a corrected writer with a proved read-back.
- `SpinsolveDirectory`: `read` on a directory given as a map from file names
  to bytes. It covers the default file names, skipping missing files,
  merging in list order, `FILE_SIZE`, and the missing-binary failure.

Each exception the source can raise becomes a `Failure` case of a `Result`.
These are `ParError` (`IndexError` in `read_pars`), `ReadError`
(`read_binary`), `WriteError` (`write_binary`) and `DirError` (`read`). Two
exceptions are treated differently, as "## Left out" explains. The header
overflow in `write_binary` is not modelled. A decoding error is raised for
the whole file, where Python decodes lazily.

The following are function parameters: float parsing (`float(val)`), float
printing (`str(v)` of a float), the float64→float32 and float32→int32 casts,
the `linspace` time-axis points, and text-mode decoding of a file's bytes.

The model follows the code as written:

- `read_pars` raises `IndexError` for a line without `=` or with an empty
  value. It has no typed error. The model's `ParError` carries the line's
  index only to tell lines apart.
- Text after a second `=` on a line is dropped.
- `ljust` pads keys to 25 characters but never truncates a longer key.
- A missing binary file makes `read` fail (`data` is unbound). It does not
  yield a dictionary without data.
- `write_binary` never writes its header. It also casts the float payload to
  `int32` before writing (see Findings).
- `read_binary` ignores its `big` argument and reads in native (little-endian)
  order.

## Model

| member | source | states |
|---|---|---|
| PyText.BlankIffRStripEmpty | nmrglue/fileio/spinsolve.py:326-328 | a line ends the file exactly when every character of it is whitespace, i.e. when `rstrip()` leaves it empty |
| PyText.SplitJoin | nmrglue/fileio/spinsolve.py:331 | `split` on a separator and `join` with it are inverse: separator-free parts survive a join and re-split unchanged |
| PyText.LJust | nmrglue/fileio/spinsolve.py:370 | `{:<25}` keeps the key as a prefix, pads it with spaces to width max(25, len) and never truncates |
| PyText.DecimalString | nmrglue/fileio/spinsolve.py:370 | an integer value prints as its decimal digits, with a leading `-` when negative; the digits denote its magnitude and have no leading zero unless the value is 0 |
| ParDict.Put | nmrglue/fileio/spinsolve.py:341 | `d[k] = v`: `k` now maps to `v`, every other key is unchanged, an existing key keeps its place, a new key is appended, and keys stay unique |
| ParDict.PutAllLookup | nmrglue/fileio/spinsolve.py:324-341 | after a series of assignments a key holds the value of its last assignment, or its old value if never assigned |
| ParDict.PutAllKeys | nmrglue/fileio/spinsolve.py:324-341 | the key order after assignments: existing keys stay in place and new keys follow in order of first assignment |
| ParDict.PutAllRebuilds | nmrglue/fileio/spinsolve.py:386-389 | updating an empty dictionary with a dictionary copies it exactly |
| ParDict.MergeDict | nmrglue/fileio/spinsolve.py:386-389 | `_merge_dict(a, b)`: keys of `b` take `b`'s value, the others keep `a`'s; `a`'s keys keep their order and `b`'s new keys follow |
| ParFile.Coerce | nmrglue/fileio/spinsolve.py:334-339 | a value starting with `"` becomes the quote-stripped string; otherwise a float exactly when `float()` accepts it, else the unchanged string |
| ParFile.QuotedValue | nmrglue/fileio/spinsolve.py:334-335 | any run of quotes around a quote-free-ended text is removed completely, leaving that text |
| ParFile.ParseLine | nmrglue/fileio/spinsolve.py:331-339 | any error a line raises carries that line's index; the lemmas below pin down which error and the entry it yields |
| ParFile.ParseLineNoSeparator | nmrglue/fileio/spinsolve.py:331-333 | a line fails with the missing-separator error exactly when it holds no `=` |
| ParFile.ParseLineFields | nmrglue/fileio/spinsolve.py:331-339 | the key is the stripped first `=`-segment, the value the coerced stripped second segment, text after a second `=` is ignored, and an empty value is an error |
| ParFile.FirstBlank | nmrglue/fileio/spinsolve.py:324-328 | the stopping line is blank and every line before it is not |
| ParFile.ParseEach | nmrglue/fileio/spinsolve.py:324-341 | lines are parsed in order: on success each entry is its line's parse; on failure the error is that of a line all of whose predecessors parsed |
| ParFile.ReadPars | nmrglue/fileio/spinsolve.py:301-343 | a successfully read dictionary has each key once, and an error names a line before the first blank line of the file |
| ParFile.ReadLinesStopsAtBlank | nmrglue/fileio/spinsolve.py:324-328 | nothing after a blank line affects the result |
| ParFile.ReadParsStopsAtBlank | nmrglue/fileio/spinsolve.py:323-328 | on file text, a whitespace-only line and everything after it can be removed without changing the result |
| ParFile.ReadParsEmpty | nmrglue/fileio/spinsolve.py:321-328 | an empty file gives an empty dictionary |
| ParFile.ReadParsOfLines | nmrglue/fileio/spinsolve.py:324-326 | reading the text of newline-joined lines reads exactly those lines |
| ParFile.ReadParsLastWins | nmrglue/fileio/spinsolve.py:341 | a key repeated within a file keeps the value of its last line |
| ParFile.FormatLineLayout | nmrglue/fileio/spinsolve.py:370 | each written line is the key, spaces up to column max(25, len(key)), ` = `, then the value's text |
| ParFile.WriteLinesJoin | nmrglue/fileio/spinsolve.py:368-371 | the output is the formatted lines in dictionary order joined by newlines, with no leading or trailing newline |
| ParFile.WritePars | nmrglue/fileio/spinsolve.py:345-374 | an empty dictionary writes nothing; otherwise the text is the entries' formatted lines, in order, joined by newlines with none before the first or after the last |
| ParFile.WriteParsLines | nmrglue/fileio/spinsolve.py:368-371 | when no key and no printed value holds a newline, splitting the output on newlines gives exactly one formatted line per entry |
| ParFile.FormattedLineRereads | nmrglue/fileio/spinsolve.py:331-339 | a written line is not blank and parses back to its entry when key and value print as themselves |
| ParFile.ReadWritePars | nmrglue/fileio/spinsolve.py:301-371 | `read_pars(write_pars(d)) == d` for every unique-key dictionary whose keys are stripped and free of `=` and newlines, and whose printed values are non-empty, stripped, free of `=` and newlines, and re-parse to themselves |
| Words.DecodeEncodeWord | nmrglue/fileio/spinsolve.py:380-383 | decoding the four bytes of a word in the same byte order gives the word back |
| Words.EncodeDecodeWord | nmrglue/fileio/spinsolve.py:246 | every four bytes are the encoding of the word they decode to |
| Words.SignedRoundTrip | nmrglue/fileio/spinsolve.py:246 | the `int32` and unsigned views of a word convert into each other losslessly |
| Words.DecodeAll | nmrglue/fileio/spinsolve.py:246-247 | `frombuffer` gives one word per four bytes, word `k` from bytes `4k..4k+4` |
| Words.EncodeAll | nmrglue/fileio/spinsolve.py:381-383 | `tostring()` gives four bytes per word, bytes `4k..4k+4` encoding word `k` |
| Words.EncodeAllAppend | nmrglue/fileio/spinsolve.py:381-383 | encoding a concatenation concatenates the encodings |
| Words.DecodeAllEncodeAll | nmrglue/fileio/spinsolve.py:246-247 | little-endian words written out are read back unchanged |
| Floats.NegSingleInvolution | nmrglue/fileio/spinsolve.py:255 | negating a float32 twice gives it back |
| SpinsolveBinary.Wrap64 | nmrglue/fileio/spinsolve.py:254 | `size.prod()` is the exact product reduced into the signed 64-bit range |
| SpinsolveBinary.SliceStart | nmrglue/fileio/spinsolve.py:254-255 | a slice start counts from the end when negative and is clamped to the sequence |
| SpinsolveBinary.EveryOther | nmrglue/fileio/spinsolve.py:255-257 | `w[s::2]` has `(len - s + 1) / 2` elements, element `k` being `w[s + 2k]` |
| SpinsolveBinary.Combine | nmrglue/fileio/spinsolve.py:255-257 | `a - 1j*b` succeeds exactly when the lengths are equal or one is 1; element `k` has real part from `a` and imaginary part the negation of `b`'s |
| SpinsolveBinary.Reshape | nmrglue/fileio/spinsolve.py:255-257 | numpy's reshape: a given shape must hold exactly the elements; one negative dimension is inferred when the other is non-zero and divides the count; two are an error |
| SpinsolveBinary.ReshapeF | nmrglue/fileio/spinsolve.py:257 | `reshape(order='F')` puts element `(i, j)` at flat position `i + j·rows` |
| SpinsolveBinary.Column | nmrglue/fileio/spinsolve.py:255 | the `(n, 1)` reshape puts sample `i` alone in row `i` |
| SpinsolveBinary.DecodeLayout | nmrglue/fileio/spinsolve.py:252-257 | fewer than two dimensions is an `IndexError`; any result has the rows and columns it claims |
| SpinsolveBinary.ReadBinary | nmrglue/fileio/spinsolve.py:244-259 | `FILE_SIZE` is the whole byte count; a non-ASCII tag fails; a file too short to hold two dimensions fails |
| SpinsolveBinary.PrefixPairs | nmrglue/fileio/spinsolve.py:254-255 | de-interleaving from word `s` and word `s+1` over an even-length rest gives pair `i` as `w[s+2i] - i·w[s+2i+1]`, with no broadcasting needed |
| SpinsolveBinary.SingleAcquisitionLayout | nmrglue/fileio/spinsolve.py:253-255 | with `n2 == 1`, `P = size.prod()` an `int64` from `-len` up to `2^63 - 2` other than -1, and `s` where `data[P:]` starts: when an even number of words follows `s`, row `i` is `data[s+2i] - i·data[s+2i+1]`, and the read succeeds exactly when `n1` equals the pair count or is negative |
| SpinsolveBinary.SingleAcquisitionOddTail | nmrglue/fileio/spinsolve.py:253-255 | in the same range of `P`, an odd number of words after `s`: one word gives an empty result (when `n1 <= 0`), three give two rows sharing the imaginary part `-data[s+1]` (when `n1` is 2 or negative), more fail to broadcast |
| SpinsolveBinary.SingleAcquisitionBeforeStart | nmrglue/fileio/spinsolve.py:253-255 | `P < -len` makes both slices start at word 0: `(len+1)/2` rows, row `k` being `data[2k] - i·data[2k]` |
| SpinsolveBinary.SingleAcquisitionMinusOne | nmrglue/fileio/spinsolve.py:253-255 | `P = -1` pairs the last word, broadcast, with every other word from the start: row `k` is `data[len-1] - i·data[2k]` |
| SpinsolveBinary.SingleAcquisitionWrapped | nmrglue/fileio/spinsolve.py:253-255 | `P = 2^63 - 1` wraps `P + 1` to the most negative `int64`: the read succeeds only for at most two words and `n1 <= 0`, with no data |
| SpinsolveBinary.DirectLayout | nmrglue/fileio/spinsolve.py:256-257 | with `n2 != 1` and an even payload, the result is an `(n1, n2)` array whose element `(i, j)` is pair `i + j·n1`. With both dimensions given, the read succeeds exactly when the pair count is `n1·n2`. A negative dimension is inferred as the pair count divided by the other, which must be positive and divide it. Two negative dimensions fail |
| SpinsolveBinary.DirectLayoutOddFails | nmrglue/fileio/spinsolve.py:257 | with `n2 != 1`, an odd payload of more than three words cannot be broadcast and the read fails |
| SpinsolveBinary.DwellTime | nmrglue/fileio/spinsolve.py:290 | the writer needs a numeric `dwellTime` entry: missing is a `KeyError`, text a `TypeError` |
| SpinsolveBinary.PutData | nmrglue/fileio/spinsolve.py:380-383 | each group of four bytes written reads back, in the chosen byte order, as its `int32` word |
| SpinsolveBinary.WrittenWords | nmrglue/fileio/spinsolve.py:289-292 | the written array is `3n` words: time axis at `[0, n)`, real parts at `[n, 2n)`, negated imaginary parts at `[2n, 3n)`, each cast to float32 then `int32` |
| SpinsolveBinary.WriteBinary | nmrglue/fileio/spinsolve.py:289-295 | the file is exactly `12n` bytes, word `k`, `n+k` and `2n+k` holding the time point, real part and negated imaginary part of sample `k`; it fails exactly when the dwell time does (the header overflow for `2^31` or more samples is not modelled) |
| SpinsolveBinary.WrittenShortFileUnreadable | nmrglue/fileio/spinsolve.py:289-295 | a file written for at most one sample cannot be read back |
| SpinsolveBinary.TagWordsAscii | nmrglue/fileio/spinsolve.py:293 | the three tag words of the header are the ASCII bytes `SORP`, `ATAD`, `1.1V` in little-endian order |
| SpinsolveBinary.WriteBinaryFixed | nmrglue/fileio/spinsolve.py:289-295 | the corrected writer fails exactly as the original does, and otherwise writes a 32-byte header plus `12n` bytes |
| SpinsolveBinary.FixedFileBytes | nmrglue/fileio/spinsolve.py:293-295 | the corrected little-endian file is the encoded header followed by the encoded float32 data words |
| SpinsolveBinary.FixedHeaderBytes | nmrglue/fileio/spinsolve.py:293 | the header written little-endian has an ASCII tag and reads back as dimensions `(n, 1, 1, 1)` |
| SpinsolveBinary.FixedWriteRoundTrip | nmrglue/fileio/spinsolve.py:244-295 | reading what the corrected writer wrote gives `FILE_SIZE` equal to its length and every sample, as float32 parts, one per row |
| SpinsolveDirectory.ParseOne | nmrglue/fileio/spinsolve.py:169 | reading a parameter file fails exactly when its text, decoded as a whole, cannot be decoded or `read_pars` fails on it; otherwise it is `read_pars`' dictionary |
| SpinsolveDirectory.ParseFiles | nmrglue/fileio/spinsolve.py:166-169 | on success there is at most one dictionary per listed file and each has every key once |
| SpinsolveDirectory.ParseFilesInOrder | nmrglue/fileio/spinsolve.py:166-169 | on success there is one dictionary per existing listed file, in list order, each the one `read_pars` gives for that file |
| SpinsolveDirectory.ParseFilesSucceeds | nmrglue/fileio/spinsolve.py:166-169 | reading the parameter files succeeds exactly when every existing listed file can be decoded and parsed |
| SpinsolveDirectory.ParseFilesFirstFailure | nmrglue/fileio/spinsolve.py:166-169 | a failure carries the error of the first existing listed file that cannot be read, every earlier one having been read |
| SpinsolveDirectory.NoParFiles | nmrglue/fileio/spinsolve.py:167-169 | when no listed file exists, nothing is read and nothing fails |
| SpinsolveDirectory.LastParsed | nmrglue/fileio/spinsolve.py:167-169 | when the last listed file exists, the last dictionary merged is that file's |
| SpinsolveDirectory.ParseFilesSkipsMissing | nmrglue/fileio/spinsolve.py:167-168 | a listed file that does not exist can be removed from the list without changing the result |
| SpinsolveDirectory.UpdateAll | nmrglue/fileio/spinsolve.py:169 | the merged dictionary keeps each key once, is the starting one when there is nothing to merge, and takes every key of the last file from that file |
| SpinsolveDirectory.UpdateAllLookup | nmrglue/fileio/spinsolve.py:167-169 | after the merge a key holds its value from the last file that defines it |
| SpinsolveDirectory.Read | nmrglue/fileio/spinsolve.py:165-182 | without the binary file `read` fails; on success keys are unique and `FILE_SIZE` is the binary file's byte count |
| SpinsolveDirectory.ReadParameters | nmrglue/fileio/spinsolve.py:165-175 | every key but `FILE_SIZE` holds its value from the last parameter file, in list order, that defines it |
| SpinsolveDirectory.ReadData | nmrglue/fileio/spinsolve.py:172-174 | the data is what `read_binary` reads from the binary file |
| SpinsolveDirectory.ReadWithoutData | nmrglue/fileio/spinsolve.py:173-182 | when the parameter files read cleanly and the binary file is missing, `read` fails with the unbound-data error |
| SpinsolveDirectory.DefaultProtocolWins | nmrglue/fileio/spinsolve.py:166-169 | with the default files, a key in `protocol.par` takes its value from there, whatever `acqu.par` says |

## Left out

- File-system plumbing is not modelled: `os.path.isfile`, `os.path.dirname`, `os.path.join`, `open`, `os.stat` and `fileiobase.open_towrite`. A directory is a map from names to bytes. Accepting a file path in place of its directory (lines 161-162) is path handling and is not modelled.
- The overwrite check and warning of `open_towrite` live outside this file.
- Text-mode decoding and universal-newline translation of a parameter file are the `decodeText` parameter. `read_pars` then works on the decoded text.
- Several float operations are uninterpreted parameters rather than IEEE arithmetic: `float(val)`, `str(float)`, the float64→float32 cast, the float32→`int32` cast of `astype('i4')`, and the `linspace` points.
- SpinsolveBinary.Combine: `a - 1j*b` is modelled as the pair `(a, -b)`. numpy computes it in complex64 (complex128 before numpy 2.0) as `(a - (0·b - 0), +0 - (0·0 + 1·b))`, and these agree whenever `b` is finite and non-zero, except for `a` = -0.0 with a negative `b`. The model differs in four cases. For `b` = +0.0, numpy's imaginary part is +0.0, where the model gives -0.0. For `a` = -0.0 with `b` negative or -0.0, numpy's real part is +0.0. For an infinite `b`, numpy's real part is NaN. For a NaN `b`, both of numpy's parts are NaN, and the sign bit follows the hardware's NaN propagation rather than a flip.
- `create_data`, `guess_udic`, `add_axis_to_udic` and `create_dic` are not modelled. They are conversion stubs and float unit arithmetic outside the codec.
- `write` only calls `write_pars` and then `write_binary`, so it is covered by those two.
- The array handed to `write_binary` is its `ravel()` order, a flat sequence of samples.
- `read_binary`'s `big` argument has no effect, and the reader assumes a little-endian machine.
- SpinsolveBinary.WriteBinary: does not model the header array `np.array([..., n1, ...], dtype='int32')` overflowing for `data.size >= 2^31`. Whether that raises `OverflowError` (numpy 2.0 on) or wraps with a warning (numpy 1.24 to 1.26) depends on the numpy version. The model writes any sample count.
- SpinsolveDirectory.ParseOne: decodes the whole file before `read_pars` runs, so any undecodable byte makes the read fail. Python's text-mode `readline` decodes lazily, in chunks of about 8 KiB. Undecodable bytes past the chunk that holds the first blank line are never decoded, and Python reads such a file successfully.
- SpinsolveBinary.SingleAcquisitionWrapped: assumes at most 2^63 - 1 data words. Together with SingleAcquisitionLayout, SingleAcquisitionOddTail, SingleAcquisitionBeforeStart and SingleAcquisitionMinusOne, this covers every value of `size.prod()`.
- SpinsolveBinary.Wrap64: assumes numpy accumulates `prod()` of an `int32` array in a 64-bit integer, as it does on LP64 platforms. numpy before 2.0 on Windows uses a 32-bit accumulator and would wrap at 2^32.
- SpinsolveBinary.DirectLayout: states the element layout for an even payload only. Odd payloads are covered by DirectLayoutOddFails except for one- and three-word payloads, where numpy broadcasts.
- SpinsolveBinary.FixedWriteRoundTrip: proved for little-endian output only, the byte order the reader uses. It relies on the Combine model, so under numpy's arithmetic a part that is -0.0 or NaN is not guaranteed to come back bit for bit (see the Combine line).
- SpinsolveBinary.WriteBinaryFixed: requires fewer than 2^31 samples, because the header stores the count as an `int32`.

## Findings

| source | as written | input that shows it | evidently intended | confidence | as-written member | corrected member |
|---|---|---|---|---|---|---|
| nmrglue/fileio/spinsolve.py:289-295 | `write_binary` builds the header but never writes it. It then writes the time axis, the real parts and the negated imaginary parts as three blocks, each cast to `int32`. | One sample with a numeric `dwellTime`: the 12-byte file is shorter than the 24 bytes the reader needs for two dimensions, so `read_binary` fails. | Write the header, then float32 words: the time axis and interleaved `(re, -im)` pairs. `read_binary` then returns every sample. | not executed | SpinsolveBinary.WrittenShortFileUnreadable | SpinsolveBinary.FixedWriteRoundTrip |

=== FILE: binary.dfy ===
/** The Spinsolve binary data file (`data.1d`) as `read_binary` reads it:
    a 12-byte ASCII tag, one 4-byte word that is skipped, up to four 32-bit
    signed dimensions, then float32 words. The numbers are taken in the
    native byte order of the reading machine, little-endian here. */
module SpinsolveBinary {
  import opened Results
  import opened Floats
  import opened Words
  import opened ParDict

  /** A complex sample `re + i·im` with float32 parts. */
  datatype Complex = Complex(re: Single, im: Single)

  /** A two-dimensional numpy array, by rows. */
  datatype Grid = Grid(rows: nat, cols: nat, elems: seq<seq<Complex>>)

  predicate Shaped(g: Grid) {
    && |g.elems| == g.rows
    && forall i :: 0 <= i < |g.elems| ==> |g.elems[i]| == g.cols
  }

  /** The exceptions `read_binary` can raise on the content of a file. */
  datatype ReadError =
    | NotAscii          // UnicodeDecodeError: the tag holds a byte above 127
    | PartialWord       // ValueError of frombuffer: a byte count not a multiple of 4
    | MissingDimension  // IndexError: fewer than two dimensions in the file
    | Unbroadcastable   // ValueError: the real and imaginary slices do not broadcast
    | BadReshape        // ValueError: the dimensions do not fit the sample count

  /** What `read_binary` returns: the `FILE_SIZE` entry and the data. */
  datatype BinaryRead = BinaryRead(fileSize: nat, data: Grid)

  const TagBytes: nat := 12
  const DimsStart: nat := 16
  const DataStart: nat := 32

  function Min(a: int, b: int): int {
    if a < b then a else b
  }

  /** Every byte is 7-bit ASCII. */
  predicate IsAscii(b: seq<byte>) {
    forall i :: 0 <= i < |b| ==> b[i] < 0x80
  }

  const Int64Modulus: int := 0x1_0000_0000_0000_0000
  const Int64Max: int := 0x7FFF_FFFF_FFFF_FFFF

  /** Two's complement wrap-around of a 64-bit signed integer. */
  function Wrap64(x: int): (r: int)
    ensures -Int64Max - 1 <= r <= Int64Max
    ensures (x - r) % Int64Modulus == 0
    ensures -Int64Max - 1 <= x <= Int64Max ==> r == x
  {
    var m := x % Int64Modulus;
    if m <= Int64Max then m else m - Int64Modulus
  }

  /** The exact product of the dimensions. */
  function Product(dims: seq<int32>): int {
    if |dims| == 0 then 1 else Product(dims[..|dims| - 1]) * dims[|dims| - 1]
  }

  /** `size.prod()` of an `int32` array: numpy accumulates in a 64-bit
      integer, so the product wraps around. */
  function DimsProduct(dims: seq<int32>): int {
    Wrap64(Product(dims))
  }

  /** Where the slice `a[start:]` of a sequence of length `len` begins:
      negative starts count from the end, and both ends are clamped. */
  function SliceStart(start: int, len: nat): (r: nat)
    ensures r <= len
    ensures 0 <= start <= len ==> r == start
    ensures start > len ==> r == len
    ensures start < 0 ==> r == (if start + len < 0 then 0 else start + len)
  {
    if start < 0 then (if start + len < 0 then 0 else start + len)
    else if start > len then len
    else start
  }

  /** `w[s::2]` for a start already normalized. */
  function EveryOther(w: seq<Single>, s: nat): (r: seq<Single>)
    requires s <= |w|
    ensures |r| == (|w| - s + 1) / 2
    ensures forall k :: 0 <= k < |r| ==> s + 2 * k < |w| && r[k] == w[s + 2 * k]
    decreases |w| - s
  {
    if s >= |w| then []
    else if s + 1 == |w| then [w[s]]
    else [w[s]] + EveryOther(w, s + 2)
  }

  /** `a - 1j*b` on two float32 arrays, with numpy broadcasting: arrays of
      equal length combine element-wise and a one-element array stretches to
      the other's length (even to length zero). The result `re + i·im` is
      taken to have `re` from `a` and `im` the negation of `b`; numpy's
      complex64 arithmetic agrees with that when `b` is finite and non-zero
      (and `a` is not -0.0 with `b` negative). */
  function Combine(a: seq<Single>, b: seq<Single>): (r: Result<seq<Complex>, ReadError>)
    ensures r.Success? <==> (|a| == |b| || |a| == 1 || |b| == 1)
    ensures r.Success? ==> |r.value| == (if |a| == 1 then |b| else |a|)
    ensures r.Success? ==> forall k :: 0 <= k < |r.value| ==>
      && r.value[k].re == a[if |a| == 1 then 0 else k]
      && r.value[k].im == NegSingle(b[if |b| == 1 then 0 else k])
  {
    if |a| == |b| then
      Success(seq(|a|, k requires 0 <= k < |a| => Complex(a[k], NegSingle(b[k]))))
    else if |a| == 1 then
      Success(seq(|b|, k requires 0 <= k < |b| => Complex(a[0], NegSingle(b[k]))))
    else if |b| == 1 then
      Success(seq(|a|, k requires 0 <= k < |a| => Complex(a[k], NegSingle(b[0]))))
    else
      Failure(Unbroadcastable)
  }

  /** The shape numpy's `reshape` gives `len` elements for the requested
      dimensions: a negative dimension is the one to infer, at most one may
      be, it is inferred only from a non-zero known extent that divides the
      element count, and a fully given shape must hold exactly `len`. */
  function Reshape(len: nat, d0: int, d1: int): (r: Result<(nat, nat), ReadError>)
    ensures r.Success? ==> r.value.0 * r.value.1 == len
    ensures r.Success? && d0 >= 0 ==> r.value.0 == d0
    ensures r.Success? && d1 >= 0 ==> r.value.1 == d1
    ensures d0 >= 0 && d1 >= 0 ==> (r.Success? <==> d0 * d1 == len)
    ensures d0 < 0 && d1 < 0 ==> r.Failure?
    ensures d0 < 0 && d1 >= 0 ==> (r.Success? <==> d1 > 0 && len % d1 == 0)
    ensures d0 >= 0 && d1 < 0 ==> (r.Success? <==> d0 > 0 && len % d0 == 0)
  {
    if d0 < 0 && d1 < 0 then Failure(BadReshape)
    else if d0 < 0 then
      if d1 == 0 || len % d1 != 0 then Failure(BadReshape)
      else Success((len / d1, d1))
    else if d1 < 0 then
      if d0 == 0 || len % d0 != 0 then Failure(BadReshape)
      else Success((d0, len / d0))
    else if d0 * d1 != len then Failure(BadReshape)
    else Success((d0, d1))
  }

  /** Scaling preserves order. */
  lemma MulMonotone(a: nat, b: nat, c: nat)
    requires a <= b
    ensures a * c <= b * c
  {
  }

  /** Where numpy finds element `[i, j]` of a `rows`-row array stored in
      Fortran (column-major) order. */
  function ColumnMajor(i: nat, j: nat, rows: nat): nat {
    i + j * rows
  }

  /** Column-major positions stay inside a rows-by-cols block. */
  lemma ColumnMajorBound(i: nat, j: nat, rows: nat, cols: nat)
    requires i < rows && j < cols
    ensures ColumnMajor(i, j, rows) < rows * cols
  {
    MulMonotone(j + 1, cols, rows);
    assert (j + 1) * rows == j * rows + rows;
  }

  lemma ColumnMajorBounds(rows: nat, cols: nat)
    ensures forall i: nat, j: nat :: i < rows && j < cols ==> ColumnMajor(i, j, rows) < rows * cols
  {
    forall i: nat, j: nat | i < rows && j < cols ensures ColumnMajor(i, j, rows) < rows * cols {
      ColumnMajorBound(i, j, rows, cols);
    }
  }

  /** `flat.reshape((n, 1))`: one sample per row. */
  function Column(flat: seq<Complex>): (g: Grid)
    ensures Shaped(g) && g.rows == |flat| && g.cols == 1
    ensures forall i :: 0 <= i < |flat| ==> g.elems[i] == [flat[i]]
  {
    Grid(|flat|, 1, seq(|flat|, i requires 0 <= i < |flat| => [flat[i]]))
  }

  /** `flat.reshape((rows, cols), order='F')`: column-major order. */
  function ReshapeF(flat: seq<Complex>, rows: nat, cols: nat): (g: Grid)
    requires rows * cols == |flat|
    ensures Shaped(g) && g.rows == rows && g.cols == cols
    ensures forall i: nat, j: nat :: i < rows && j < cols ==>
      ColumnMajor(i, j, rows) < |flat| && g.elems[i][j] == flat[ColumnMajor(i, j, rows)]
  {
    ColumnMajorBounds(rows, cols);
    Grid(rows, cols, seq(rows, i requires 0 <= i < rows =>
      seq(cols, j requires 0 <= j < cols => flat[ColumnMajor(i, j, rows)])))
  }

  /** The reshaping step of `read_binary` (lines after the dictionary is
      built), given the dimensions and float32 words read from the file.
      With a second dimension of 1 the first `size.prod()` words (the time
      axis) are skipped and the rest are interleaved real/imaginary pairs
      put one per row (a reshape to `(n, 1)`); otherwise all words are pairs
      put in Fortran order. */
  function DecodeLayout(dims: seq<int32>, words: seq<Single>): (r: Result<Grid, ReadError>)
    requires |dims| <= 4
    ensures |dims| < 2 ==> r == Failure(MissingDimension)
    ensures r.Success? ==> Shaped(r.value)
  {
    if |dims| < 2 then Failure(MissingDimension)
    else if dims[1] == 1 then SingleLayout(dims[0], DimsProduct(dims), words)
    else FortranLayout(dims[0], dims[1], words)
  }

  /** `(data[P::2] - 1j*data[P+1::2]).reshape((n1, 1))` with `P` the
      dimension product. */
  function SingleLayout(n1: int, p: int, words: seq<Single>): (r: Result<Grid, ReadError>)
    ensures r.Success? ==> Shaped(r.value)
  {
    var re := EveryOther(words, SliceStart(p, |words|));
    var im := EveryOther(words, SliceStart(Wrap64(p + 1), |words|));
    var flat :- Combine(re, im);
    var shape :- Reshape(|flat|, n1, 1);
    Success(Column(flat))
  }

  /** `(data[::2] - 1j*data[1::2]).reshape((n1, n2), order='F')`. */
  function FortranLayout(n1: int, n2: int, words: seq<Single>): (r: Result<Grid, ReadError>)
    ensures r.Success? ==> Shaped(r.value)
  {
    var re := EveryOther(words, 0);
    var im := EveryOther(words, SliceStart(1, |words|));
    var flat :- Combine(re, im);
    var shape :- Reshape(|flat|, n1, n2);
    Success(ReshapeF(flat, shape.0, shape.1))
  }

  /** The signed dimensions stored in `b`. */
  function Dims(b: seq<byte>): (dims: seq<int32>)
    requires |b| % 4 == 0
    ensures |dims| == |b| / 4
  {
    var ws := DecodeAll(b);
    seq(|ws|, k requires 0 <= k < |ws| => ToSigned(ws[k]))
  }

  /** The float32 words stored in `b`. */
  function Singles(b: seq<byte>): (fs: seq<Single>)
    requires |b| % 4 == 0
    ensures |fs| == |b| / 4
  {
    var ws := DecodeAll(b);
    seq(|ws|, k requires 0 <= k < |ws| => Single(ws[k]))
  }

  /** `read_binary` on the bytes of a file. */
  function ReadBinary(bytes: seq<byte>): (r: Result<BinaryRead, ReadError>)
    ensures r.Success? ==> r.value.fileSize == |bytes| && Shaped(r.value.data)
    ensures !IsAscii(bytes[..Min(TagBytes, |bytes|)]) ==> r == Failure(NotAscii)
    ensures |bytes| < DimsStart + 8 ==> r.Failure?
  {
    var tag := bytes[..Min(TagBytes, |bytes|)];
    var dimBytes := bytes[Min(DimsStart, |bytes|)..Min(DataStart, |bytes|)];
    var payload := bytes[Min(DataStart, |bytes|)..];
    if !IsAscii(tag) then Failure(NotAscii)
    else if |dimBytes| % 4 != 0 || |payload| % 4 != 0 then Failure(PartialWord)
    else
      var grid :- DecodeLayout(Dims(dimBytes), Singles(payload));
      Success(BinaryRead(|bytes|, grid))
  }

  /** `EveryOther` from an even start over an even-length tail yields half
      of the tail. */
  lemma EveryOtherLength(w: seq<Single>, s: nat)
    requires s <= |w| && (|w| - s) % 2 == 0
    ensures |EveryOther(w, s)| == (|w| - s) / 2
  {
  }

  /** The interleaved pairs `(re, -im)` after the first `p` data words, as
      complex samples (a trailing odd word is not part of a pair). */
  function Pairs(words: seq<Single>, p: nat): (r: seq<Complex>)
    requires p <= |words|
    ensures |r| == (|words| - p) / 2
    ensures forall i :: 0 <= i < |r| ==> p + 2 * i + 1 < |words| && r[i] == Complex(words[p + 2 * i], NegSingle(words[p + 2 * i + 1]))
  {
    seq((|words| - p) / 2, i requires 0 <= i < (|words| - p) / 2 => Complex(words[p + 2 * i], NegSingle(words[p + 2 * i + 1])))
  }

  /** `data[P::2]` and `data[P+1::2]` start one word apart, or both at the
      end: `P` is an `int64` that counts back at most to the first word, is
      not -1 (where `P + 1` is 0, the very start) and is not the largest
      `int64` (where `P + 1` wraps around). */
  predicate AdjacentStarts(p: int, len: nat) {
    -Int64Max - 1 <= p < Int64Max && 0 <= p + len && p != -1
  }

  /** Under `AdjacentStarts`, the imaginary slice starts right after the
      real one. */
  lemma NextStart(p: int, len: nat)
    requires AdjacentStarts(p, len)
    ensures SliceStart(Wrap64(p + 1), len) == Min(SliceStart(p, len) + 1, len)
  {
  }

  /** De-interleaving from `s` and `s + 1` over an even-length tail gives
      the pairs after `s`. */
  lemma PrefixPairs(words: seq<Single>, s: nat)
    requires s <= |words| && (|words| - s) % 2 == 0
    ensures Combine(EveryOther(words, s), EveryOther(words, Min(s + 1, |words|)))
            == Success(Pairs(words, s))
  {
    EveryOtherLength(words, s);
    var re := EveryOther(words, s);
    var im := EveryOther(words, Min(s + 1, |words|));
    assert |im| == |re| == (|words| - s) / 2;
    var flat := Combine(re, im).value;
    forall i | 0 <= i < |flat| ensures flat[i] == Pairs(words, s)[i] {
      assert re[i] == words[s + 2 * i];
      assert im[i] == words[s + 2 * i + 1];
    }
    assert flat == Pairs(words, s);
  }

  /** The single-acquisition branch: broadcast the two slices, then
      reshape to `(n1, 1)`. */
  lemma SingleDecode(n1: int, p: int, words: seq<Single>)
    ensures var c := Combine(EveryOther(words, SliceStart(p, |words|)),
                             EveryOther(words, SliceStart(Wrap64(p + 1), |words|)));
            SingleLayout(n1, p, words)
              == if c.Failure? then Failure(c.error)
                 else if n1 < 0 || n1 == |c.value| then Success(Column(c.value))
                 else Failure(BadReshape)
  {
    var c := Combine(EveryOther(words, SliceStart(p, |words|)),
                     EveryOther(words, SliceStart(Wrap64(p + 1), |words|)));
    if c.Success? {
      assert Reshape(|c.value|, n1, 1).Success? <==> n1 < 0 || n1 == |c.value|;
    }
  }

  /** Under `AdjacentStarts` and an even remainder: one pair per row. */
  lemma EvenTail(n1: int, p: int, words: seq<Single>)
    requires AdjacentStarts(p, |words|) && (|words| - SliceStart(p, |words|)) % 2 == 0
    ensures var s := SliceStart(p, |words|);
            var r := SingleLayout(n1, p, words);
            && (r.Success? <==> n1 < 0 || n1 == (|words| - s) / 2)
            && (r.Success? ==> r.value == Column(Pairs(words, s)))
  {
    var s := SliceStart(p, |words|);
    NextStart(p, |words|);
    PrefixPairs(words, s);
    var c := Combine(EveryOther(words, s), EveryOther(words, SliceStart(Wrap64(p + 1), |words|)));
    assert c == Success(Pairs(words, s));
    assert |c.value| == (|words| - s) / 2;
    SingleDecode(n1, p, words);
  }

  /** The slices of an odd remainder, as `a - 1j*b` broadcasts them. */
  lemma OddTailPairs(words: seq<Single>, s: nat)
    requires s < |words| && (|words| - s) % 2 == 1
    ensures var c := Combine(EveryOther(words, s), EveryOther(words, s + 1));
            && (|words| - s > 3 ==> c == Failure(Unbroadcastable))
            && (|words| - s == 1 ==> c == Success([]))
            && (|words| - s == 3 ==> && c.Success? && |c.value| == 2
                                     && c.value[0] == Complex(words[s], NegSingle(words[s + 1]))
                                     && c.value[1] == Complex(words[s + 2], NegSingle(words[s + 1])))
  {
    var re := EveryOther(words, s);
    var im := EveryOther(words, s + 1);
    assert |re| == |im| + 1;
    if |words| - s == 1 {
      assert Combine(re, im).value == [];
    }
  }

  /** Under `AdjacentStarts` and an odd remainder. */
  lemma OddTail(n1: int, p: int, words: seq<Single>)
    requires AdjacentStarts(p, |words|) && (|words| - SliceStart(p, |words|)) % 2 == 1
    ensures var s := SliceStart(p, |words|);
            var r := SingleLayout(n1, p, words);
            && (|words| - s > 3 ==> r == Failure(Unbroadcastable))
            && (|words| - s == 1 ==> (r.Success? <==> n1 <= 0) && (r.Success? ==> r.value == Column([])))
            && (|words| - s == 3 ==>
                  && (r.Success? <==> n1 < 0 || n1 == 2)
                  && (r.Success? ==> && r.value.rows == 2
                                     && r.value.elems[0] == [Complex(words[s], NegSingle(words[s + 1]))]
                                     && r.value.elems[1] == [Complex(words[s + 2], NegSingle(words[s + 1]))]))
  {
    var s := SliceStart(p, |words|);
    NextStart(p, |words|);
    assert SliceStart(Wrap64(p + 1), |words|) == s + 1;
    OddTailPairs(words, s);
    SingleDecode(n1, p, words);
  }

  /** The single-acquisition layout (second dimension 1): the reader skips
      the first `P = size.prod()` words (the time axis; a negative `P`
      keeps only the last `-P` words), and when what remains is an even
      number of words it holds interleaved pairs `(re, -im)`; the data is
      one pair per row, and the first dimension must equal the number of
      pairs unless it is negative (numpy then infers it). */
  lemma SingleAcquisitionLayout(dims: seq<int32>, words: seq<Single>)
    requires 2 <= |dims| <= 4 && dims[1] == 1
    ensures var p := DimsProduct(dims);
            var s := SliceStart(p, |words|);
            var r := DecodeLayout(dims, words);
            AdjacentStarts(p, |words|) && (|words| - s) % 2 == 0 ==>
              && (r.Success? <==> dims[0] < 0 || dims[0] == (|words| - s) / 2)
              && (r.Success? ==> r.value == Column(Pairs(words, s)))
  {
    var p := DimsProduct(dims);
    if AdjacentStarts(p, |words|) && (|words| - SliceStart(p, |words|)) % 2 == 0 {
      assert DecodeLayout(dims, words) == SingleLayout(dims[0], p, words);
      EvenTail(dims[0], p, words);
    }
  }

  /** When an odd number of words remains after the skipped prefix, the
      real slice is one longer than the imaginary one: numpy broadcasts a
      one-word remainder to no data at all and a three-word remainder to two
      rows sharing the imaginary part; a longer remainder fails. */
  lemma SingleAcquisitionOddTail(dims: seq<int32>, words: seq<Single>)
    requires 2 <= |dims| <= 4 && dims[1] == 1
    ensures var p := DimsProduct(dims);
            var s := SliceStart(p, |words|);
            var r := DecodeLayout(dims, words);
            AdjacentStarts(p, |words|) && (|words| - s) % 2 == 1 ==>
              && (|words| - s > 3 ==> r == Failure(Unbroadcastable))
              && (|words| - s == 1 ==> (r.Success? <==> dims[0] <= 0) && (r.Success? ==> r.value == Column([])))
              && (|words| - s == 3 ==>
                    && (r.Success? <==> dims[0] < 0 || dims[0] == 2)
                    && (r.Success? ==> && r.value.rows == 2
                                       && r.value.elems[0] == [Complex(words[s], NegSingle(words[s + 1]))]
                                       && r.value.elems[1] == [Complex(words[s + 2], NegSingle(words[s + 1]))]))
  {
    var p := DimsProduct(dims);
    if AdjacentStarts(p, |words|) && (|words| - SliceStart(p, |words|)) % 2 == 1 {
      assert DecodeLayout(dims, words) == SingleLayout(dims[0], p, words);
      OddTail(dims[0], p, words);
    }
  }

  /** A prefix `P` that counts back past the first word makes both slices
      start at word 0: each row pairs a word with its own negation. */
  lemma SingleAcquisitionBeforeStart(dims: seq<int32>, words: seq<Single>)
    requires 2 <= |dims| <= 4 && dims[1] == 1
    ensures var p := DimsProduct(dims);
            var h := (|words| + 1) / 2;
            var r := DecodeLayout(dims, words);
            p < -|words| ==>
              && (r.Success? <==> dims[0] < 0 || dims[0] == h)
              && (r.Success? ==> && r.value.rows == h
                                 && forall k :: 0 <= k < h ==> r.value.elems[k] == [Complex(words[2 * k], NegSingle(words[2 * k]))])
  {
    var p := DimsProduct(dims);
    if p < -|words| {
      assert DecodeLayout(dims, words) == SingleLayout(dims[0], p, words);
      assert SliceStart(p, |words|) == 0;
      assert SliceStart(Wrap64(p + 1), |words|) == 0;
      SingleDecode(dims[0], p, words);
    }
  }

  /** `P = -1` (as for dimensions `(-1, 1, 1, 1)`) makes the real slice the
      last word alone and the imaginary slice every other word from the
      start; the last word is broadcast against them. */
  lemma SingleAcquisitionMinusOne(dims: seq<int32>, words: seq<Single>)
    requires 2 <= |dims| <= 4 && dims[1] == 1
    ensures var h := (|words| + 1) / 2;
            var r := DecodeLayout(dims, words);
            DimsProduct(dims) == -1 && |words| > 0 ==>
              && (r.Success? <==> dims[0] < 0 || dims[0] == h)
              && (r.Success? ==> && r.value.rows == h
                                 && forall k :: 0 <= k < h ==> r.value.elems[k] == [Complex(words[|words| - 1], NegSingle(words[2 * k]))])
  {
    if DimsProduct(dims) == -1 && |words| > 0 {
      assert DecodeLayout(dims, words) == SingleLayout(dims[0], -1, words);
      assert SliceStart(-1, |words|) == |words| - 1;
      assert SliceStart(Wrap64(-1 + 1), |words|) == 0;
      SingleDecode(dims[0], -1, words);
    }
  }

  /** `P = 2^63 - 1` wraps `P + 1` around to the most negative integer, so
      the imaginary slice starts at word 0 while the real slice is empty:
      only a payload of at most two words broadcasts, to no data. */
  lemma SingleAcquisitionWrapped(dims: seq<int32>, words: seq<Single>)
    requires 2 <= |dims| <= 4 && dims[1] == 1
    ensures var r := DecodeLayout(dims, words);
            DimsProduct(dims) == Int64Max && |words| <= Int64Max ==>
              && (r.Success? <==> |words| <= 2 && dims[0] <= 0)
              && (r.Success? ==> r.value == Column([]))
  {
    if DimsProduct(dims) == Int64Max && |words| <= Int64Max {
      assert DecodeLayout(dims, words) == SingleLayout(dims[0], Int64Max, words);
      assert SliceStart(Int64Max, |words|) == |words|;
      assert SliceStart(Wrap64(Int64Max + 1), |words|) == 0;
      SingleDecode(dims[0], Int64Max, words);
      var im := EveryOther(words, 0);
      var c := Combine([], im);
      assert c.Success? <==> |words| <= 2;
      if c.Success? {
        assert c.value == [];
      }
    }
  }

  /** The sample stored as pair `c` of the data words: the real part, then
      the imaginary part with its sign flipped. */
  function PairAt(words: seq<Single>, c: nat): Complex
    requires 2 * c + 1 < |words|
  {
    Complex(words[2 * c], NegSingle(words[2 * c + 1]))
  }

  /** Data words of even count, de-interleaved from the start, are the
      pairs in order. */
  lemma DirectPairs(words: seq<Single>)
    requires |words| % 2 == 0
    ensures var flat := Combine(EveryOther(words, 0), EveryOther(words, SliceStart(1, |words|)));
            && flat.Success? && |flat.value| == |words| / 2
            && forall c :: 0 <= c < |flat.value| ==> 2 * c + 1 < |words| && flat.value[c] == PairAt(words, c)
  {
    var re := EveryOther(words, 0);
    var im := EveryOther(words, SliceStart(1, |words|));
    EveryOtherLength(words, 0);
    assert |im| == |re|;
  }

  /** The direct layout (second dimension other than 1): the whole data part
      is interleaved pairs `(re, -im)`, put into an `(n1, n2)` array in
      Fortran order. Both dimensions given, the pairs must fill it exactly;
      one negative dimension is inferred from the other, which must be
      positive and divide the pair count; two negative dimensions fail. */
  lemma DirectLayout(dims: seq<int32>, words: seq<Single>)
    requires 2 <= |dims| <= 4 && dims[1] != 1
    requires |words| % 2 == 0
    ensures var r := DecodeLayout(dims, words);
            var n1 := dims[0] as int;
            var n2 := dims[1] as int;
            var pairs := |words| / 2;
            && (n1 >= 0 && n2 >= 0 ==> (r.Success? <==> pairs == n1 * n2))
            && (n1 < 0 && n2 >= 0 ==> (r.Success? <==> n2 > 0 && pairs % n2 == 0))
            && (n1 >= 0 && n2 < 0 ==> (r.Success? <==> n1 > 0 && pairs % n1 == 0))
            && (n1 < 0 && n2 < 0 ==> r.Failure?)
            && (r.Success? ==> && r.value.rows * r.value.cols == pairs
                               && (n1 >= 0 ==> r.value.rows == n1)
                               && (n2 >= 0 ==> r.value.cols == n2)
                               && (n1 < 0 ==> n2 > 0 && r.value.rows == pairs / n2)
                               && (n2 < 0 ==> n1 > 0 && r.value.cols == pairs / n1)
                               && forall i: nat, j: nat :: i < r.value.rows && j < r.value.cols ==>
                                    var c := ColumnMajor(i, j, r.value.rows);
                                    2 * c + 1 < |words| && r.value.elems[i][j] == PairAt(words, c))
  {
    DirectPairs(words);
    var flat := Combine(EveryOther(words, 0), EveryOther(words, SliceStart(1, |words|))).value;
    assert |flat| == |words| / 2;
    var r := DecodeLayout(dims, words);
    assert r == FortranLayout(dims[0], dims[1], words);
    var sh := Reshape(|flat|, dims[0], dims[1]);
    assert r.Success? <==> sh.Success?;
    if r.Success? {
      var g := r.value;
      assert g == ReshapeF(flat, sh.value.0, sh.value.1);
      assert g.rows == sh.value.0 && g.cols == sh.value.1;
      if dims[0] < 0 {
        assert g.rows * dims[1] == |flat|;
      }
      if dims[1] < 0 {
        assert dims[0] * g.cols == |flat|;
      }
    }
  }

  /** With an odd number of data words and no skipped prefix, the real and
      imaginary slices differ in length by one; numpy broadcasts them only
      for one or three words, and otherwise the read fails. */
  lemma DirectLayoutOddFails(dims: seq<int32>, words: seq<Single>)
    requires 2 <= |dims| <= 4 && dims[1] != 1
    requires |words| % 2 == 1 && |words| > 3
    ensures DecodeLayout(dims, words) == Failure(Unbroadcastable)
  {
    var re := EveryOther(words, 0);
    var im := EveryOther(words, 1);
    assert |re| == |im| + 1;
  }

  // ---------------------------------------------------------------------
  // Writing

  /** A complex128 sample of the array handed to `write_binary`. */
  datatype Sample = Sample(re: Double, im: Double)

  /** The exceptions `write_binary` raises on its dictionary. */
  datatype WriteError =
    | MissingDwellTime  // KeyError: no 'dwellTime' entry
    | DwellNotNumeric   // TypeError: a text 'dwellTime' cannot be divided

  /** The dwell time `write_binary` divides by 1000 to space the time axis. */
  function DwellTime(dic: ParMap): (r: Result<Value, WriteError>)
    ensures r.Success? <==> Lookup(dic, "dwellTime").Some? && !Lookup(dic, "dwellTime").value.Str?
    ensures r.Success? ==> Lookup(dic, "dwellTime") == Some(r.value)
    ensures "dwellTime" !in Keys(dic) ==> r == Failure(MissingDwellTime)
    ensures Lookup(dic, "dwellTime").Some? && Lookup(dic, "dwellTime").value.Str? ==> r == Failure(DwellNotNumeric)
  {
    match Lookup(dic, "dwellTime")
    case None => Failure(MissingDwellTime)
    case Some(v) => if v.Str? then Failure(DwellNotNumeric) else Success(v)
  }

  /** `np.linspace(0, (n-1)*dt, n, dtype='float32')`; `timeAt(dwell, n, k)`
      is its point `k`, a float computation left to the caller. */
  function TimeAxis(dwell: Value, n: nat, timeAt: (Value, nat, nat) -> Single): (t: seq<Single>)
    ensures |t| == n
    ensures forall k :: 0 <= k < n ==> t[k] == timeAt(dwell, n, k)
  {
    seq(n, k requires 0 <= k < n => timeAt(dwell, n, k))
  }

  /** The signed word `k` of a byte string in the given byte order. */
  function WordAt(b: seq<byte>, k: nat, big: bool): int32
    requires 4 * k + 4 <= |b|
  {
    ToSigned(DecodeWord(b[4 * k..4 * k + 4], big))
  }

  /** `put_data`: the words of an `int32` array as `>i4` (big) or `<i4`
      bytes; each group of four bytes reads back as its word. */
  function PutData(ws: seq<int32>, big: bool): (b: seq<byte>)
    ensures |b| == 4 * |ws|
    ensures forall k :: 0 <= k < |ws| ==> WordAt(b, k, big) == ws[k]
  {
    var us := seq(|ws|, k requires 0 <= k < |ws| => FromSigned(ws[k]));
    var b := EncodeAll(us, big);
    assert forall k :: 0 <= k < |ws| ==> WordAt(b, k, big) == ws[k] by {
      forall k | 0 <= k < |ws| ensures WordAt(b, k, big) == ws[k] {
        DecodeEncodeWord(us[k], big);
        SignedRoundTrip(us[k], ws[k]);
      }
    }
    b
  }

  /** `write_binary` as written. The array written is the time axis, then
      the real parts, then the negated imaginary parts (negated in float64),
      all cast to float32 and then to `int32` by `astype('>i4')` or
      `astype('<i4')`; the eight-word header is computed but never written.
      `toSingle` and `toInt32` are numpy's float64-to-float32 and
      float32-to-int32 casts. */
  function WriteBinary(dic: ParMap, samples: seq<Sample>, big: bool,
                       timeAt: (Value, nat, nat) -> Single,
                       toSingle: Double -> Single,
                       toInt32: Single -> int32): (r: Result<seq<byte>, WriteError>)
    ensures r.Success? <==> DwellTime(dic).Success?
    ensures r.Failure? ==> r.error == DwellTime(dic).error
    ensures r.Success? ==>
      var n := |samples|;
      var dwell := DwellTime(dic).value;
      && |r.value| == 12 * n
      && forall k :: 0 <= k < n ==>
           && WordAt(r.value, k, big) == toInt32(timeAt(dwell, n, k))
           && WordAt(r.value, n + k, big) == toInt32(toSingle(samples[k].re))
           && WordAt(r.value, 2 * n + k, big) == toInt32(toSingle(NegDouble(samples[k].im)))
  {
    var dwell :- DwellTime(dic);
    Success(PutData(WrittenWords(dwell, samples, timeAt, toSingle, toInt32), big))
  }

  /** The `int32` words `write_binary` hands to `put_data`: the time axis,
      the real parts, the negated imaginary parts, each block `n` long. */
  function WrittenWords(dwell: Value, samples: seq<Sample>,
                        timeAt: (Value, nat, nat) -> Single,
                        toSingle: Double -> Single,
                        toInt32: Single -> int32): (ws: seq<int32>)
    ensures var n := |samples|;
      && |ws| == 3 * n
      && forall k :: 0 <= k < n ==>
           && ws[k] == toInt32(timeAt(dwell, n, k))
           && ws[n + k] == toInt32(toSingle(samples[k].re))
           && ws[2 * n + k] == toInt32(toSingle(NegDouble(samples[k].im)))
  {
    var n := |samples|;
    var data := TimeAxis(dwell, n, timeAt)
                + seq(n, k requires 0 <= k < n => toSingle(samples[k].re))
                + seq(n, k requires 0 <= k < n => toSingle(NegDouble(samples[k].im)));
    seq(|data|, k requires 0 <= k < |data| => toInt32(data[k]))
  }

  /** The header `write_binary` computes: the tag words, a fourth word, and
      the dimensions `(n, 1, 1, 1)`. */
  function Header(n: nat): (h: seq<uint32>)
    requires n < 0x8000_0000
    ensures |h| == 8
  {
    [1347571539, 1145132097, 1446063665, 504, n, 1, 1, 1]
  }

  /** The written file has no header and is too short to hold one: a file
      written for at most one sample cannot be read back at all. */
  lemma WrittenShortFileUnreadable(dic: ParMap, samples: seq<Sample>, big: bool,
                                   timeAt: (Value, nat, nat) -> Single,
                                   toSingle: Double -> Single,
                                   toInt32: Single -> int32)
    requires |samples| <= 1
    requires DwellTime(dic).Success?
    ensures var bytes := WriteBinary(dic, samples, big, timeAt, toSingle, toInt32).value;
            ReadBinary(bytes).Failure?
  {
  }

  /** `write_binary` as evidently intended, so that `read_binary` reads back
      the samples: the header is written first (in the chosen byte order),
      then the time axis and the samples interleaved as `(re, -im)` pairs,
      all as float32 words. The header stores the sample count as an
      `int32`, so there are fewer than 2^31 samples. */
  function WriteBinaryFixed(dic: ParMap, samples: seq<Sample>, big: bool,
                            timeAt: (Value, nat, nat) -> Single,
                            toSingle: Double -> Single): (r: Result<seq<byte>, WriteError>)
    requires |samples| < 0x8000_0000
    ensures r.Success? <==> DwellTime(dic).Success?
    ensures r.Failure? ==> r.error == DwellTime(dic).error
    ensures r.Success? ==> |r.value| == DataStart + 12 * |samples|
  {
    var dwell :- DwellTime(dic);
    var n := |samples|;
    var data := PairedData(TimeAxis(dwell, n, timeAt), Reals(samples, toSingle), Imags(samples, toSingle));
    Success(EncodeAll(Header(n) + Bits(data), big))
  }

  /** The real parts of the samples, as float32. */
  function Reals(samples: seq<Sample>, toSingle: Double -> Single): (fs: seq<Single>)
    ensures |fs| == |samples|
    ensures forall k :: 0 <= k < |samples| ==> fs[k] == toSingle(samples[k].re)
  {
    seq(|samples|, k requires 0 <= k < |samples| => toSingle(samples[k].re))
  }

  /** The imaginary parts of the samples, as float32. */
  function Imags(samples: seq<Sample>, toSingle: Double -> Single): (fs: seq<Single>)
    ensures |fs| == |samples|
    ensures forall k :: 0 <= k < |samples| ==> fs[k] == toSingle(samples[k].im)
  {
    seq(|samples|, k requires 0 <= k < |samples| => toSingle(samples[k].im))
  }

  /** Element-wise negation. */
  function Negated(fs: seq<Single>): (gs: seq<Single>)
    ensures |gs| == |fs|
    ensures forall k :: 0 <= k < |fs| ==> gs[k] == NegSingle(fs[k])
  {
    seq(|fs|, k requires 0 <= k < |fs| => NegSingle(fs[k]))
  }

  /** The bit patterns of float32 values, as written by `tostring()`. */
  function Bits(fs: seq<Single>): (us: seq<uint32>)
    ensures |us| == |fs|
    ensures forall k :: 0 <= k < |fs| ==> Single(us[k]) == fs[k]
  {
    seq(|fs|, k requires 0 <= k < |fs| => fs[k].bits)
  }

  /** Alternating elements of two equally long sequences. */
  function Interleave(a: seq<Single>, b: seq<Single>): (r: seq<Single>)
    requires |a| == |b|
    ensures |r| == 2 * |a|
    ensures forall k :: 0 <= k < |a| ==> r[2 * k] == a[k] && r[2 * k + 1] == b[k]
    decreases |a|
  {
    if |a| == 0 then [] else [a[0], b[0]] + Interleave(a[1..], b[1..])
  }

  /** The corrected data words: the time axis, then each sample as the pair
      `(re, -im)`. */
  function PairedData(time: seq<Single>, re: seq<Single>, im: seq<Single>): (words: seq<Single>)
    requires |re| == |time| && |im| == |time|
    ensures |words| == 3 * |time|
    ensures words[..|time|] == time
    ensures forall i :: 0 <= i < |time| ==>
      words[|time| + 2 * i] == re[i] && words[|time| + 2 * i + 1] == NegSingle(im[i])
  {
    time + Interleave(re, Negated(im))
  }

  /** `read_binary` on a file that is a 32-byte prologue with an ASCII tag
      followed by whole words: the dimensions come from bytes 16 to 32 and
      the data words from the rest; the file size is the whole length. */
  lemma ReadBinaryFramed(head: seq<byte>, body: seq<byte>)
    requires |head| == DataStart && IsAscii(head[..TagBytes]) && |body| % 4 == 0
    ensures var r := DecodeLayout(Dims(head[DimsStart..]), Singles(body));
            ReadBinary(head + body) == if r.Success? then Success(BinaryRead(|head| + |body|, r.value))
                                       else Failure(r.error)
  {
    var bytes := head + body;
    assert bytes[..TagBytes] == head[..TagBytes];
    assert bytes[DimsStart..DataStart] == head[DimsStart..];
    assert bytes[DataStart..] == body;
    assert Dims(bytes[DimsStart..DataStart]) == Dims(head[DimsStart..]);
    assert Singles(bytes[DataStart..]) == Singles(body);
  }

  /** The tag words of the header are ASCII text in little-endian order. */
  lemma TagWordsAscii()
    ensures EncodeWord(1347571539, false) == [0x53, 0x4F, 0x52, 0x50]
    ensures EncodeWord(1145132097, false) == [0x41, 0x54, 0x41, 0x44]
    ensures EncodeWord(1446063665, false) == [0x31, 0x2E, 0x31, 0x56]
  {
  }

  /** The tag the corrected writer emits in little-endian order is ASCII. */
  lemma FixedTagAscii(n: nat)
    requires n < 0x8000_0000
    ensures IsAscii(EncodeAll(Header(n), false)[..TagBytes])
  {
    var h := Header(n);
    var head := EncodeAll(h, false);
    TagWordsAscii();
    forall i | 0 <= i < TagBytes ensures head[i] < 0x80 {
      var k := i / 4;
      assert head[4 * k..4 * k + 4] == EncodeWord(h[k], false);
      assert head[i] == EncodeWord(h[k], false)[i - 4 * k];
    }
  }

  /** The prologue the corrected writer emits in little-endian order: an
      ASCII tag and the dimensions `(n, 1, 1, 1)`. */
  lemma FixedHeaderBytes(n: nat)
    requires n < 0x8000_0000
    ensures var head := EncodeAll(Header(n), false);
            && |head| == DataStart
            && IsAscii(head[..TagBytes])
            && Dims(head[DimsStart..]) == [n, 1, 1, 1]
  {
    var h := Header(n);
    FixedTagAscii(n);
    assert h == h[..4] + h[4..];
    EncodeAllAppend(h[..4], h[4..], false);
    DecodeAllEncodeAll(h[4..]);
  }

  /** The float32 words the corrected writer emits read back as themselves. */
  lemma SinglesOfBits(fs: seq<Single>)
    ensures Singles(EncodeAll(Bits(fs), false)) == fs
  {
    DecodeAllEncodeAll(Bits(fs));
  }

  /** The dimensions `(n, 1, 1, 1)` hold `n` elements. */
  lemma ColumnDimsProduct(n: nat)
    requires n < 0x8000_0000
    ensures DimsProduct([n, 1, 1, 1]) == n
  {
    var dims: seq<int32> := [n, 1, 1, 1];
    var d1 := dims[..1];
    assert d1[..0] == [];
    assert Product(d1) == n;
    var d2 := dims[..2];
    assert d2[..1] == d1;
    assert Product(d2) == n;
    var d3 := dims[..3];
    assert d3[..2] == d2;
    assert Product(d3) == n;
    assert dims[..3] == d3;
  }

  /** The pairs after the time axis are the samples, with the sign of the
      stored imaginary part undone. */
  lemma FixedPairs(time: seq<Single>, re: seq<Single>, im: seq<Single>)
    requires |re| == |time| && |im| == |time|
    ensures forall i :: 0 <= i < |time| ==> Pairs(PairedData(time, re, im), |time|)[i] == Complex(re[i], im[i])
  {
    forall i | 0 <= i < |time|
      ensures Pairs(PairedData(time, re, im), |time|)[i] == Complex(re[i], im[i])
    {
      NegSingleInvolution(im[i]);
    }
  }

  /** With dimensions `(n, 1, 1, 1)` and `3n` data words, the reader skips
      the `n`-word time axis and returns the `n` pairs after it, one per row. */
  lemma ColumnLayout(n: nat, words: seq<Single>)
    requires n < 0x8000_0000 && |words| == 3 * n
    ensures DecodeLayout([n, 1, 1, 1], words) == Success(Column(Pairs(words, n)))
  {
    var dims: seq<int32> := [n, 1, 1, 1];
    ColumnDimsProduct(n);
    assert |dims| == 4 && dims[0] == n && dims[1] == 1;
    assert SliceStart(n, |words|) == n && AdjacentStarts(n, |words|);
    assert (|words| - n) / 2 == n;
    SingleAcquisitionLayout(dims, words);
    assert DecodeLayout(dims, words).Success?;
  }


  /** A file made of the corrected header for `n` samples and whole float32
      data words reads as the layout of those words under the dimensions
      `(n, 1, 1, 1)`. */
  lemma ReadFixedFile(n: nat, data: seq<Single>)
    requires n < 0x8000_0000
    ensures var r := DecodeLayout([n, 1, 1, 1], data);
            var bytes := EncodeAll(Header(n), false) + EncodeAll(Bits(data), false);
            ReadBinary(bytes) == if r.Success? then Success(BinaryRead(|bytes|, r.value)) else Failure(r.error)
  {
    FixedHeaderBytes(n);
    SinglesOfBits(data);
    ReadBinaryFramed(EncodeAll(Header(n), false), EncodeAll(Bits(data), false));
  }

  /** The corrected writer's little-endian bytes: the header, then the
      time axis and the pairs as float32 words. */
  lemma FixedFileBytes(dic: ParMap, samples: seq<Sample>,
                       timeAt: (Value, nat, nat) -> Single,
                       toSingle: Double -> Single)
    requires |samples| < 0x8000_0000
    requires DwellTime(dic).Success?
    ensures var time := TimeAxis(DwellTime(dic).value, |samples|, timeAt);
            var data := PairedData(time, Reals(samples, toSingle), Imags(samples, toSingle));
            WriteBinaryFixed(dic, samples, false, timeAt, toSingle)
              == Success(EncodeAll(Header(|samples|), false) + EncodeAll(Bits(data), false))
  {
    var time := TimeAxis(DwellTime(dic).value, |samples|, timeAt);
    var data := PairedData(time, Reals(samples, toSingle), Imags(samples, toSingle));
    EncodeAllAppend(Header(|samples|), Bits(data), false);
  }

  /** Reading the corrected file for `n` samples gives the pairs after the
      time axis, one per row. */
  lemma ReadFixedData(n: nat, data: seq<Single>)
    requires n < 0x8000_0000 && |data| == 3 * n
    ensures var bytes := EncodeAll(Header(n), false) + EncodeAll(Bits(data), false);
            ReadBinary(bytes) == Success(BinaryRead(|bytes|, Column(Pairs(data, n))))
  {
    ReadFixedFile(n, data);
    ColumnLayout(n, data);
  }

  /** Reading back what the corrected writer wrote, in little-endian order,
      gives every sample, as a float32 complex value, one per row. */
  lemma FixedWriteRoundTrip(dic: ParMap, samples: seq<Sample>,
                            timeAt: (Value, nat, nat) -> Single,
                            toSingle: Double -> Single)
    requires |samples| < 0x8000_0000
    requires DwellTime(dic).Success?
    ensures var bytes := WriteBinaryFixed(dic, samples, false, timeAt, toSingle).value;
            var r := ReadBinary(bytes);
            && r.Success? && r.value.fileSize == |bytes|
            && r.value.data.rows == |samples| && r.value.data.cols == 1
            && forall i :: 0 <= i < |samples| ==>
                 r.value.data.elems[i] == [Complex(toSingle(samples[i].re), toSingle(samples[i].im))]
  {
    var time := TimeAxis(DwellTime(dic).value, |samples|, timeAt);
    var re := Reals(samples, toSingle);
    var im := Imags(samples, toSingle);
    FixedFileBytes(dic, samples, timeAt, toSingle);
    ReadFixedData(|samples|, PairedData(time, re, im));
    FixedPairs(time, re, im);
  }
}

=== FILE: directory.dfy ===
/** `read`: a Spinsolve experiment directory is parameter files, merged in
    order, and one binary data file. The directory is a map from file names
    to contents; a name that is not a key is a file that does not exist. */
module SpinsolveDirectory {
  import opened Results
  import opened Floats
  import opened Words
  import opened ParDict
  import opened ParFile
  import opened SpinsolveBinary

  type Directory = map<string, seq<byte>>

  /** The exceptions `read` lets through. */
  datatype DirError =
    | Undecodable(file: string)                       // UnicodeDecodeError reading a parameter file
    | BadParFile(file: string, lineError: ParError)   // IndexError inside `read_pars`
    | BadBinary(file: string, readError: ReadError)   // an exception inside `read_binary`
    | DataUnbound                                     // UnboundLocalError: no binary file, `data` never set

  /** What `read` returns: the parameter dictionary and the data. */
  datatype Spectrum = Spectrum(dic: ParMap, data: Grid)

  const DefaultParFiles: seq<string> := ["acqu.par", "protocol.par"]
  const DefaultBinFile: string := "data.1d"
  const FileSizeKey: string := "FILE_SIZE"

  /** The parameter files `read` looks for. */
  function ParNames(parsFiles: Option<seq<string>>): seq<string> {
    if parsFiles.None? then DefaultParFiles else parsFiles.value
  }

  /** The binary file `read` looks for. */
  function BinName(binFile: Option<string>): string {
    if binFile.None? then DefaultBinFile else binFile.value
  }

  /** `read_pars` on the decoded text of one file. */
  type ParReader = string -> Result<ParMap, ParError>

  /** A reader whose every dictionary has unique keys, as a `dict` has. */
  ghost predicate ReadsDictionaries(readPars: ParReader) {
    forall text :: readPars(text).Success? ==> UniqueKeys(readPars(text).value)
  }

  /** The model's `read_pars`, as a reader of decoded text. */
  function ParsReader(parseFloat: string -> Option<Double>): (readPars: ParReader)
    ensures ReadsDictionaries(readPars)
    ensures forall text :: readPars(text) == ReadPars(text, parseFloat)
  {
    text => ReadPars(text, parseFloat)
  }

  /** `read_pars` on one existing file; `decodeText` is the text-mode
      decoding of its bytes (with newline translation), which can fail. */
  function ParseOne(dir: Directory, name: string,
                    decodeText: seq<byte> -> Option<string>,
                    readPars: ParReader): (r: Result<ParMap, DirError>)
    requires name in dir && ReadsDictionaries(readPars)
    ensures r.Success? ==> UniqueKeys(r.value)
    ensures r.Success? <==> decodeText(dir[name]).Some? && readPars(decodeText(dir[name]).value).Success?
    ensures decodeText(dir[name]).None? ==> r == Failure(Undecodable(name))
    ensures r.Success? ==> r.value == readPars(decodeText(dir[name]).value).value
  {
    match decodeText(dir[name])
    case None => Failure(Undecodable(name))
    case Some(text) =>
      match readPars(text)
      case Failure(e) => Failure(BadParFile(name, e))
      case Success(d) => Success(d)
  }

  /** The dictionaries of the parameter files that exist, in the order given;
      the first file that cannot be read aborts. */
  function ParseFiles(dir: Directory, names: seq<string>,
                      decodeText: seq<byte> -> Option<string>,
                      readPars: ParReader): (r: Result<seq<ParMap>, DirError>)
    requires ReadsDictionaries(readPars)
    ensures r.Success? ==> |r.value| <= |names|
    ensures r.Success? ==> forall i :: 0 <= i < |r.value| ==> UniqueKeys(r.value[i])
    decreases |names|
  {
    if |names| == 0 then Success([])
    else if names[0] !in dir then ParseFiles(dir, names[1..], decodeText, readPars)
    else
      var d :- ParseOne(dir, names[0], decodeText, readPars);
      var rest :- ParseFiles(dir, names[1..], decodeText, readPars);
      Success([d] + rest)
  }

  /** The listed names that exist in the directory, in list order. */
  function Existing(dir: Directory, names: seq<string>): (e: seq<string>)
    ensures |e| <= |names|
    ensures forall i :: 0 <= i < |e| ==> e[i] in dir
    ensures forall i :: 0 <= i < |names| && names[i] in dir ==> names[i] in e
    decreases |names|
  {
    if |names| == 0 then []
    else if names[0] in dir then [names[0]] + Existing(dir, names[1..])
    else Existing(dir, names[1..])
  }

  /** On success, the existing files are read in list order, one dictionary
      each. */
  lemma {:induction false} ParseFilesInOrder(dir: Directory, names: seq<string>,
                                             decodeText: seq<byte> -> Option<string>,
                                             readPars: ParReader)
    requires ReadsDictionaries(readPars)
    ensures var e := Existing(dir, names);
            var r := ParseFiles(dir, names, decodeText, readPars);
            r.Success? ==> && |r.value| == |e|
                           && forall i :: 0 <= i < |e| ==> var p := ParseOne(dir, e[i], decodeText, readPars);
                                p.Success? && r.value[i] == p.value
    decreases |names|
  {
    if |names| > 0 {
      var rest := names[1..];
      ParseFilesInOrder(dir, rest, decodeText, readPars);
      var e' := Existing(dir, rest);
      var r' := ParseFiles(dir, rest, decodeText, readPars);
      var r := ParseFiles(dir, names, decodeText, readPars);
      if names[0] in dir {
        var e := Existing(dir, names);
        assert e == [names[0]] + e';
        if r.Success? {
          var p := ParseOne(dir, names[0], decodeText, readPars);
          assert r == Success([p.value] + r'.value);
          assert forall i :: 0 < i < |e| ==> e[i] == e'[i - 1];
        }
      } else {
        assert Existing(dir, names) == e';
        assert r == r';
      }
    }
  }

  /** A failed read fails with the error of the first existing file that
      cannot be read. */
  lemma {:induction false} ParseFilesFirstFailure(dir: Directory, names: seq<string>,
                                                  decodeText: seq<byte> -> Option<string>,
                                                  readPars: ParReader)
    requires ReadsDictionaries(readPars)
    ensures var e := Existing(dir, names);
            var r := ParseFiles(dir, names, decodeText, readPars);
            r.Failure? ==> exists i :: && 0 <= i < |e|
                                       && ParseOne(dir, e[i], decodeText, readPars) == Failure(r.error)
                                       && forall j :: 0 <= j < i ==> ParseOne(dir, e[j], decodeText, readPars).Success?
    decreases |names|
  {
    if |names| > 0 {
      var rest := names[1..];
      ParseFilesFirstFailure(dir, rest, decodeText, readPars);
      var e' := Existing(dir, rest);
      var r' := ParseFiles(dir, rest, decodeText, readPars);
      if names[0] in dir {
        var e := Existing(dir, names);
        assert e == [names[0]] + e';
        var p := ParseOne(dir, names[0], decodeText, readPars);
        var r := ParseFiles(dir, names, decodeText, readPars);
        if p.Failure? {
          assert r == Failure(p.error);
          assert ParseOne(dir, Existing(dir, names)[0], decodeText, readPars) == Failure(ParseFiles(dir, names, decodeText, readPars).error);
        } else if r'.Failure? {
          assert r == Failure(r'.error);
          var i :| && 0 <= i < |e'|
                   && ParseOne(dir, e'[i], decodeText, readPars) == Failure(r'.error)
                   && forall j :: 0 <= j < i ==> ParseOne(dir, e'[j], decodeText, readPars).Success?;
          assert e[i + 1] == e'[i];
          assert forall j :: 0 < j < i + 1 ==> e[j] == e'[j - 1];
          assert forall j :: 0 <= j < i + 1 ==> ParseOne(dir, e[j], decodeText, readPars).Success?;
        }
      } else {
        assert Existing(dir, names) == e';
        assert ParseFiles(dir, names, decodeText, readPars) == r';
      }
    }
  }

  /** Reading the parameter files succeeds exactly when each existing file
      can be read. */
  lemma ParseFilesSucceeds(dir: Directory, names: seq<string>,
                           decodeText: seq<byte> -> Option<string>,
                           readPars: ParReader)
    requires ReadsDictionaries(readPars)
    ensures var e := Existing(dir, names);
            (ParseFiles(dir, names, decodeText, readPars).Success?
             <==> forall i :: 0 <= i < |e| ==> ParseOne(dir, e[i], decodeText, readPars).Success?)
  {
    ParseFilesInOrder(dir, names, decodeText, readPars);
    ParseFilesFirstFailure(dir, names, decodeText, readPars);
  }

  /** When none of the listed files exists, nothing is read and nothing fails. */
  lemma {:induction false} NoParFiles(dir: Directory, names: seq<string>,
                                      decodeText: seq<byte> -> Option<string>,
                                      readPars: ParReader)
    requires ReadsDictionaries(readPars)
    requires forall i :: 0 <= i < |names| ==> names[i] !in dir
    ensures ParseFiles(dir, names, decodeText, readPars) == Success([])
    decreases |names|
  {
    if |names| > 0 {
      assert forall i :: 0 <= i < |names| - 1 ==> names[1..][i] == names[i + 1];
      NoParFiles(dir, names[1..], decodeText, readPars);
    }
  }

  /** `dic.update(d)` for each parsed dictionary in turn. */
  function UpdateAll(dic: ParMap, ds: seq<ParMap>): (r: ParMap)
    requires forall i :: 0 <= i < |ds| ==> UniqueKeys(ds[i])
    ensures UniqueKeys(dic) ==> UniqueKeys(r)
    ensures |ds| == 0 ==> r == dic
    ensures |ds| > 0 ==> forall k :: k in Keys(ds[|ds| - 1]) ==> Lookup(r, k) == Lookup(ds[|ds| - 1], k)
    decreases |ds|
  {
    if |ds| == 0 then dic else MergeDict(UpdateAll(dic, ds[..|ds| - 1]), ds[|ds| - 1])
  }

  /** The reference meaning of the merge: the value of `k` in the last
      dictionary that defines it. */
  function LastDefined(ds: seq<ParMap>, k: string): Option<Value>
    decreases |ds|
  {
    if |ds| == 0 then None
    else if k in Keys(ds[|ds| - 1]) then Lookup(ds[|ds| - 1], k)
    else LastDefined(ds[..|ds| - 1], k)
  }

  /** After merging, a key holds its value from the last dictionary that
      defines it, or its old value when none does. */
  lemma {:induction false} UpdateAllLookup(dic: ParMap, ds: seq<ParMap>, k: string)
    requires forall i :: 0 <= i < |ds| ==> UniqueKeys(ds[i])
    ensures Lookup(UpdateAll(dic, ds), k) == (if LastDefined(ds, k).Some? then LastDefined(ds, k) else Lookup(dic, k))
    decreases |ds|
  {
    if |ds| > 0 {
      UpdateAllLookup(dic, ds[..|ds| - 1], k);
      var last := ds[|ds| - 1];
      if k in Keys(last) {
        assert Lookup(last, k).Some?;
      }
    }
  }

  /** `read` on a directory. */
  function Read(dir: Directory, binFile: Option<string>, parsFiles: Option<seq<string>>,
                decodeText: seq<byte> -> Option<string>,
                parseFloat: string -> Option<Double>): (r: Result<Spectrum, DirError>)
    ensures r.Success? ==> UniqueKeys(r.value.dic)
    ensures BinName(binFile) !in dir ==> r.Failure?
    ensures r.Success? ==> Lookup(r.value.dic, FileSizeKey) == Some(Int(|dir[BinName(binFile)]|))
  {
    var ds :- ParseFiles(dir, ParNames(parsFiles), decodeText, ParsReader(parseFloat));
    var dic := UpdateAll([], ds);
    var bin := BinName(binFile);
    if bin !in dir then Failure(DataUnbound)
    else
      match ReadBinary(dir[bin])
      case Failure(e) => Failure(BadBinary(bin, e))
      case Success(b) => Success(Spectrum(Put(dic, FileSizeKey, Int(b.fileSize)), b.data))
  }

  /** `ReadParameters` for a read known to succeed. */
  lemma ReadMerges(dir: Directory, binFile: Option<string>, parsFiles: Option<seq<string>>,
                   decodeText: seq<byte> -> Option<string>,
                   parseFloat: string -> Option<Double>, k: string)
    requires Read(dir, binFile, parsFiles, decodeText, parseFloat).Success?
    requires k != FileSizeKey
    ensures var ds := ParseFiles(dir, ParNames(parsFiles), decodeText, ParsReader(parseFloat));
            && ds.Success?
            && Lookup(Read(dir, binFile, parsFiles, decodeText, parseFloat).value.dic, k) == LastDefined(ds.value, k)
  {
    var ds := ParseFiles(dir, ParNames(parsFiles), decodeText, ParsReader(parseFloat)).value;
    UpdateAllLookup([], ds, k);
  }

  /** Every key other than `FILE_SIZE` holds its value from the last
      parameter file, in the order given, that defines it. */
  lemma ReadParameters(dir: Directory, binFile: Option<string>, parsFiles: Option<seq<string>>,
                       decodeText: seq<byte> -> Option<string>,
                       parseFloat: string -> Option<Double>, k: string)
    ensures var r := Read(dir, binFile, parsFiles, decodeText, parseFloat);
            var ds := ParseFiles(dir, ParNames(parsFiles), decodeText, ParsReader(parseFloat));
            r.Success? && k != FileSizeKey ==> ds.Success? && Lookup(r.value.dic, k) == LastDefined(ds.value, k)
  {
    if Read(dir, binFile, parsFiles, decodeText, parseFloat).Success? && k != FileSizeKey {
      ReadMerges(dir, binFile, parsFiles, decodeText, parseFloat, k);
    }
  }

  /** The data is what `read_binary` reads from the binary file. */
  lemma ReadData(dir: Directory, binFile: Option<string>, parsFiles: Option<seq<string>>,
                 decodeText: seq<byte> -> Option<string>,
                 parseFloat: string -> Option<Double>)
    ensures var r := Read(dir, binFile, parsFiles, decodeText, parseFloat);
            var bin := BinName(binFile);
            r.Success? ==> bin in dir && ReadBinary(dir[bin]) == Success(BinaryRead(|dir[bin]|, r.value.data))
  {
  }

  /** Without a binary file, `read` fails once the parameter files are read. */
  lemma ReadWithoutData(dir: Directory, binFile: Option<string>, parsFiles: Option<seq<string>>,
                        decodeText: seq<byte> -> Option<string>,
                        parseFloat: string -> Option<Double>)
    requires BinName(binFile) !in dir
    requires ParseFiles(dir, ParNames(parsFiles), decodeText, ParsReader(parseFloat)).Success?
    ensures Read(dir, binFile, parsFiles, decodeText, parseFloat) == Failure(DataUnbound)
  {
  }

  /** A parameter file that does not exist is skipped. */
  lemma {:induction false} ParseFilesSkipsMissing(dir: Directory, before: seq<string>, name: string, after: seq<string>,
                                                  decodeText: seq<byte> -> Option<string>,
                                                  readPars: ParReader)
    requires ReadsDictionaries(readPars) && name !in dir
    ensures ParseFiles(dir, before + [name] + after, decodeText, readPars)
         == ParseFiles(dir, before + after, decodeText, readPars)
    decreases |before|
  {
    if |before| == 0 {
      assert (before + [name] + after)[1..] == after;
      assert before + after == after;
    } else {
      assert (before + [name] + after)[1..] == before[1..] + [name] + after;
      assert (before + after)[1..] == before[1..] + after;
      ParseFilesSkipsMissing(dir, before[1..], name, after, decodeText, readPars);
    }
  }

  /** When the last listed file exists, the last dictionary read is that
      file's. */
  lemma {:induction false} LastParsed(dir: Directory, names: seq<string>,
                                      decodeText: seq<byte> -> Option<string>,
                                      readPars: ParReader)
    requires ReadsDictionaries(readPars)
    requires |names| > 0 && names[|names| - 1] in dir
    requires ParseFiles(dir, names, decodeText, readPars).Success?
    ensures ParseOne(dir, names[|names| - 1], decodeText, readPars).Success?
    ensures var ds := ParseFiles(dir, names, decodeText, readPars).value;
            && |ds| > 0
            && ds[|ds| - 1] == ParseOne(dir, names[|names| - 1], decodeText, readPars).value
    decreases |names|
  {
    var rest := names[1..];
    if |names| == 1 {
      var d := ParseOne(dir, names[0], decodeText, readPars);
      assert ParseFiles(dir, rest, decodeText, readPars) == Success([]);
      assert ParseFiles(dir, names, decodeText, readPars) == Success([d.value] + []);
      assert names[|names| - 1] == names[0];
      assert ([d.value] + [])[0] == d.value;
    } else {
      var last := names[|names| - 1];
      assert rest[|rest| - 1] == last;
      assert ParseFiles(dir, rest, decodeText, readPars).Success?;
      LastParsed(dir, rest, decodeText, readPars);
      var r := ParseFiles(dir, rest, decodeText, readPars).value;
      var p := ParseOne(dir, last, decodeText, readPars);
      assert p.Success? && r[|r| - 1] == p.value;
      if names[0] in dir {
        var d := ParseOne(dir, names[0], decodeText, readPars).value;
        assert ParseFiles(dir, names, decodeText, readPars).value == [d] + r;
        assert ([d] + r)[|r|] == r[|r| - 1];
      } else {
        assert ParseFiles(dir, names, decodeText, readPars).value == r;
      }
    }
  }

  /** With the default files, a key defined in `protocol.par` takes its value
      from there, whatever `acqu.par` says. */
  lemma DefaultProtocolWins(dir: Directory, binFile: Option<string>,
                            decodeText: seq<byte> -> Option<string>,
                            parseFloat: string -> Option<Double>, text: string, k: string)
    requires k != FileSizeKey
    requires "protocol.par" in dir && decodeText(dir["protocol.par"]) == Some(text)
    ensures var r := Read(dir, binFile, None, decodeText, parseFloat);
            var p := ReadPars(text, parseFloat);
            r.Success? && p.Success? && k in Keys(p.value) ==> Lookup(r.value.dic, k) == Lookup(p.value, k)
  {
    var p := ReadPars(text, parseFloat);
    if Read(dir, binFile, None, decodeText, parseFloat).Success? && p.Success? && k in Keys(p.value) {
      ReadMerges(dir, binFile, None, decodeText, parseFloat, k);
      var reader := ParsReader(parseFloat);
      assert DefaultParFiles[|DefaultParFiles| - 1] == "protocol.par";
      LastParsed(dir, DefaultParFiles, decodeText, reader);
      var ds := ParseFiles(dir, DefaultParFiles, decodeText, reader).value;
      var last := ParseOne(dir, "protocol.par", decodeText, reader).value;
      assert last == ReadPars(text, parseFloat).value;
      assert ds[|ds| - 1] == last;
      assert LastDefined(ds, k) == Lookup(last, k);
    }
  }
}

=== FILE: floats.dfy ===
/** IEEE-754 values kept opaque: a float is only its bit pattern. The writer
    negates the imaginary parts (`-data.imag`), which flips the sign bit and
    nothing else. The reader's `a - 1j*b` is complex arithmetic, not a
    negation; the model approximates its imaginary part by the negation of
    `b` and its real part by `a`, which is exact when `b` is finite and
    non-zero, except for `a` = -0.0 with a negative `b`. */
module Floats {

  type uint32 = x: int | 0 <= x < 0x1_0000_0000
  type uint64 = x: int | 0 <= x < 0x1_0000_0000_0000_0000

  const SignBit32: int := 0x8000_0000
  const SignBit64: int := 0x8000_0000_0000_0000

  /** A numpy float32 value, by its 32 bits. */
  datatype Single = Single(bits: uint32)

  /** A numpy float64 (Python float) value, by its 64 bits. */
  datatype Double = Double(bits: uint64)

  /** `-x` on a float32: only the sign bit changes. */
  function NegSingle(x: Single): (r: Single)
    ensures r.bits % SignBit32 == x.bits % SignBit32
    ensures (r.bits >= SignBit32) != (x.bits >= SignBit32)
  {
    if x.bits >= SignBit32 then Single(x.bits - SignBit32) else Single(x.bits + SignBit32)
  }

  /** `-x` on a float64: only the sign bit changes. */
  function NegDouble(x: Double): (r: Double)
    ensures r.bits % SignBit64 == x.bits % SignBit64
    ensures (r.bits >= SignBit64) != (x.bits >= SignBit64)
  {
    if x.bits >= SignBit64 then Double(x.bits - SignBit64) else Double(x.bits + SignBit64)
  }

  /** Negating twice gives back the same float32. */
  lemma NegSingleInvolution(x: Single)
    ensures NegSingle(NegSingle(x)) == x
  {
  }
}

=== FILE: pardict.dfy ===
/** The parameter dictionary: a Python `dict` from `str` keys to values, which
    remembers insertion order. Assigning to an existing key keeps the key where
    it is and replaces its value; a new key goes last. */
module ParDict {
  import opened Results
  import opened Floats

  /** A parameter value: a number `float()` accepted, a string, or an integer
      (the byte size the binary reader reports). */
  datatype Value = Float(x: Double) | Str(s: string) | Int(i: int)

  datatype Entry = Entry(key: string, value: Value)

  /** A dictionary, in insertion order. */
  type ParMap = seq<Entry>

  function Keys(m: ParMap): (ks: seq<string>)
    ensures |ks| == |m|
    ensures forall i :: 0 <= i < |m| ==> ks[i] == m[i].key
  {
    seq(|m|, i requires 0 <= i < |m| => m[i].key)
  }

  /** The dictionary invariant: no key occurs twice. */
  predicate UniqueKeys(m: ParMap) {
    forall i, j :: 0 <= i < j < |m| ==> m[i].key != m[j].key
  }

  /** Position of the first entry with key `k`, or `|m|` when there is none. */
  function IndexOf(m: ParMap, k: string): (i: nat)
    ensures i <= |m|
    ensures i < |m| ==> m[i].key == k
    ensures forall j :: 0 <= j < i ==> m[j].key != k
  {
    if |m| == 0 then 0
    else if m[0].key == k then 0
    else 1 + IndexOf(m[1..], k)
  }

  /** `d.get(k)` */
  function Lookup(m: ParMap, k: string): (r: Option<Value>)
    ensures r.None? <==> k !in Keys(m)
    ensures r.Some? ==> Entry(k, r.value) in m
    ensures UniqueKeys(m) ==> forall i :: 0 <= i < |m| && m[i].key == k ==> r == Some(m[i].value)
  {
    var i := IndexOf(m, k);
    if i < |m| then Some(m[i].value) else None
  }

  /** `d[k] = v` */
  function Put(m: ParMap, k: string, v: Value): (r: ParMap)
    ensures Lookup(r, k) == Some(v)
    ensures forall k' :: k' != k ==> Lookup(r, k') == Lookup(m, k')
    ensures k in Keys(m) ==> Keys(r) == Keys(m)
    ensures k !in Keys(m) ==> r == m + [Entry(k, v)]
    ensures UniqueKeys(m) ==> UniqueKeys(r)
  {
    var i := IndexOf(m, k);
    if i < |m| then
      PutExisting(m, i, k, v);
      m[i := Entry(k, v)]
    else
      PutNew(m, k, v);
      m + [Entry(k, v)]
  }

  lemma PutExisting(m: ParMap, i: nat, k: string, v: Value)
    requires i == IndexOf(m, k) < |m|
    ensures var r := m[i := Entry(k, v)];
      && Lookup(r, k) == Some(v)
      && (forall k' :: k' != k ==> Lookup(r, k') == Lookup(m, k'))
      && Keys(r) == Keys(m)
      && (UniqueKeys(m) ==> UniqueKeys(r))
  {
    var r := m[i := Entry(k, v)];
    forall k' ensures IndexOf(r, k') == IndexOf(m, k') {
      IndexOfSameKeys(m, r, k');
    }
    assert Keys(r) == Keys(m);
  }

  lemma PutNew(m: ParMap, k: string, v: Value)
    requires IndexOf(m, k) == |m|
    ensures var r := m + [Entry(k, v)];
      && Lookup(r, k) == Some(v)
      && (forall k' :: k' != k ==> Lookup(r, k') == Lookup(m, k'))
      && k !in Keys(m)
      && (UniqueKeys(m) ==> UniqueKeys(r))
  {
    forall k' | k' != k ensures IndexOf(m + [Entry(k, v)], k') == IndexOf(m, k') || (IndexOf(m, k') == |m| && IndexOf(m + [Entry(k, v)], k') == |m| + 1) {
      IndexOfAppend(m, Entry(k, v), k');
    }
    IndexOfAppend(m, Entry(k, v), k);
  }

  /** Two dictionaries with the same keys position every key alike. */
  lemma IndexOfSameKeys(m: ParMap, r: ParMap, k: string)
    requires |m| == |r|
    requires forall j :: 0 <= j < |m| ==> (m[j].key == k <==> r[j].key == k)
    ensures IndexOf(r, k) == IndexOf(m, k)
  {
  }

  lemma IndexOfAppend(m: ParMap, e: Entry, k: string)
    ensures IndexOf(m, k) < |m| ==> IndexOf(m + [e], k) == IndexOf(m, k)
    ensures IndexOf(m, k) == |m| ==> IndexOf(m + [e], k) == (if e.key == k then |m| else |m| + 1)
  {
    assert forall j :: 0 <= j < |m| ==> (m + [e])[j] == m[j];
    assert (m + [e])[|m|] == e;
  }

  /** `for k, v in pairs: d[k] = v` (also what `d.update(other)` does). */
  function PutAll(m: ParMap, es: seq<Entry>): (r: ParMap)
    ensures UniqueKeys(m) ==> UniqueKeys(r)
    decreases |es|
  {
    if |es| == 0 then m
    else
      var last := es[|es| - 1];
      Put(PutAll(m, es[..|es| - 1]), last.key, last.value)
  }

  /** The value the last pair with key `k` carries: the reference meaning of
      "a later assignment overrides an earlier one". */
  function LastBinding(es: seq<Entry>, k: string): Option<Value> {
    if |es| == 0 then None
    else if es[|es| - 1].key == k then Some(es[|es| - 1].value)
    else LastBinding(es[..|es| - 1], k)
  }

  /** The key order `PutAll` produces: keys already present stay, each new key
      is appended at its first assignment. */
  function AddKeys(ks: seq<string>, es: seq<Entry>): seq<string>
    decreases |es|
  {
    if |es| == 0 then ks
    else
      var prev := AddKeys(ks, es[..|es| - 1]);
      if es[|es| - 1].key in prev then prev else prev + [es[|es| - 1].key]
  }

  /** After a series of assignments, a key holds the value of its last
      assignment, or its old value when it was never assigned. */
  lemma {:induction false} PutAllLookup(m: ParMap, es: seq<Entry>, k: string)
    ensures Lookup(PutAll(m, es), k) == (if LastBinding(es, k).Some? then LastBinding(es, k) else Lookup(m, k))
    decreases |es|
  {
    if |es| > 0 {
      PutAllLookup(m, es[..|es| - 1], k);
    }
  }

  /** Assignments keep existing keys in place and append new keys in the
      order they are first assigned. */
  lemma {:induction false} PutAllKeys(m: ParMap, es: seq<Entry>)
    ensures Keys(PutAll(m, es)) == AddKeys(Keys(m), es)
    decreases |es|
  {
    if |es| > 0 {
      PutAllKeys(m, es[..|es| - 1]);
      var p := PutAll(m, es[..|es| - 1]);
      var last := es[|es| - 1];
      if last.key !in Keys(p) {
        assert Keys(p + [Entry(last.key, last.value)]) == Keys(p) + [last.key];
      }
    }
  }

  /** In a dictionary the last binding of a key is its only binding. */
  lemma {:induction false} LastBindingUnique(m: ParMap, k: string)
    requires UniqueKeys(m)
    ensures LastBinding(m, k) == Lookup(m, k)
    decreases |m|
  {
    if |m| > 0 {
      var init := m[..|m| - 1];
      LastBindingUnique(init, k);
      if m[|m| - 1].key != k {
        if k in Keys(init) {
          var i :| 0 <= i < |init| && Keys(init)[i] == k;
          assert m[i] == init[i];
        } else {
          assert k !in Keys(m) by {
            forall i | 0 <= i < |m| ensures m[i].key != k {
              if i < |init| {
                assert Keys(init)[i] == init[i].key == m[i].key;
              }
            }
          }
        }
      }
    }
  }

  /** Assigning the entries of a dictionary, in order, to an empty dictionary
      rebuilds that dictionary. */
  lemma {:induction false} PutAllRebuilds(es: seq<Entry>)
    requires UniqueKeys(es)
    ensures PutAll([], es) == es
    decreases |es|
  {
    if |es| > 0 {
      var init := es[..|es| - 1];
      PutAllRebuilds(init);
      var last := es[|es| - 1];
      assert last.key !in Keys(init) by {
        forall i | 0 <= i < |init| ensures Keys(init)[i] != last.key {
          assert init[i] == es[i];
        }
      }
      assert init + [last] == es;
    }
  }

  lemma PutAllLookupAll(m: ParMap, es: ParMap)
    requires UniqueKeys(es)
    ensures forall k :: Lookup(PutAll(m, es), k) == (if k in Keys(es) then Lookup(es, k) else Lookup(m, k))
  {
    forall k ensures Lookup(PutAll(m, es), k) == (if k in Keys(es) then Lookup(es, k) else Lookup(m, k)) {
      PutAllLookup(m, es, k);
      LastBindingUnique(es, k);
    }
  }

  /** `_merge_dict(a, b)`: a copy of `a` updated with `b`. Keys of `b` take
      `b`'s value, the others keep `a`'s; `a`'s keys keep their order and
      `b`'s new keys follow. (Values are immutable, so `a` itself is untouched.) */
  function MergeDict(a: ParMap, b: ParMap): (c: ParMap)
    requires UniqueKeys(b)
    ensures UniqueKeys(a) ==> UniqueKeys(c)
    ensures forall k :: Lookup(c, k) == (if k in Keys(b) then Lookup(b, k) else Lookup(a, k))
    ensures Keys(c) == AddKeys(Keys(a), b)
  {
    PutAllLookupAll(a, b);
    PutAllKeys(a, b);
    PutAll(a, b)
  }
}

=== FILE: parfile.dfy ===
/** The `.par` parameter text codec: `read_pars` turns `key = value` lines into
    a dictionary, `write_pars` turns a dictionary back into such lines.

    Text enters as the characters Python's text-mode reader yields. Parsing a
    float and printing one are numeric routines outside this model, so they are
    parameters: `parseFloat(t)` is `Some(x)` when `float(t)` returns `x` and
    `None` when it raises `ValueError`; `showFloat(x)` is `str(x)`. */
module ParFile {
  import opened Results
  import opened Floats
  import opened PyText
  import opened ParDict

  /** Why `read_pars` aborts. Python raises `IndexError` in both cases; the
      model also records the 0-based number of the offending line. */
  datatype ParError =
    | NoSeparator(line: nat)  // `line[1]` after splitting a line with no '='
    | EmptyValue(line: nat)   // `val[0]` on a value that is empty once stripped

  /** Minimum width of the key column written by `write_pars`. */
  const KeyWidth: nat := 25

  /** The type a stripped, non-empty value text is given: a leading double
      quote makes a string with the quotes stripped; otherwise a number when
      `float()` accepts the text, and the text itself when it does not. */
  function Coerce(val: string, parseFloat: string -> Option<Double>): (v: Value)
    requires |val| > 0
    ensures !v.Int?
    ensures v.Float? <==> val[0] != '"' && parseFloat(val).Some?
    ensures v.Float? ==> parseFloat(val) == Some(v.x)
    ensures v.Str? && val[0] != '"' ==> v.s == val
    ensures val[0] == '"' ==> v == Str(StripQuotes(val))
  {
    if val[0] == '"' then Str(StripQuotes(val))
    else
      match parseFloat(val)
      case Some(x) => Float(x)
      case None => Str(val)
  }

  /** A quoted value loses every surrounding quote and keeps what is inside. */
  lemma QuotedValue(open: string, inner: string, close: string, parseFloat: string -> Option<Double>)
    requires |open| > 0
    requires forall i :: 0 <= i < |open| ==> open[i] == '"'
    requires forall i :: 0 <= i < |close| ==> close[i] == '"'
    requires |inner| > 0 ==> inner[0] != '"' && inner[|inner| - 1] != '"'
    ensures Coerce(open + inner + close, parseFloat) == Str(inner)
  {
    var val := open + inner + close;
    assert val == (open + inner) + close;
    TrimEndPadding(open + inner, close, IsQuote);
    if |inner| == 0 {
      assert open + inner == open;
      TrimEndPadding([], open, IsQuote);
      assert [] + open == open;
    } else {
      assert (open + inner)[|open + inner| - 1] == inner[|inner| - 1];
      assert TrimEnd(open + inner, IsQuote) == open + inner;
      TrimStartPadding(open, inner, IsQuote);
    }
  }

  /** One line of a `.par` file, as `read_pars` handles it: right-strip, split
      on '=', strip the first two pieces, type the value. */
  function ParseLine(raw: string, index: nat, parseFloat: string -> Option<Double>): (r: Result<Entry, ParError>)
    ensures r.Failure? ==> r.error.line == index
  {
    var segs := Split(RStrip(raw), '=');
    if |segs| < 2 then Failure(NoSeparator(index))
    else
      var val := Strip(segs[1]);
      if |val| == 0 then Failure(EmptyValue(index))
      else Success(Entry(Strip(segs[0]), Coerce(val, parseFloat)))
  }

  /** A line fails for want of a separator exactly when it has no '='. */
  lemma ParseLineNoSeparator(raw: string, index: nat, parseFloat: string -> Option<Double>)
    ensures ParseLine(raw, index, parseFloat) == Failure(NoSeparator(index)) <==> '=' !in raw
  {
    var line := RStrip(raw);
    var segs := Split(line, '=');
    if '=' in raw {
      var i :| 0 <= i < |raw| && raw[i] == '=';
      assert line[i] == '=';
      assert |segs| >= 2;
    } else {
      assert line == raw[..|line|];
      SplitNoSeparator(line, '=');
    }
  }

  /** The key is the text before the first '=' and the value the text up to
      the second '=' (or the end), both stripped; whatever follows a second
      '=' is ignored. */
  lemma ParseLineFields(key: string, val: string, tail: string, index: nat, parseFloat: string -> Option<Double>)
    requires '=' !in key && '=' !in val
    requires tail == [] || tail[0] == '='
    ensures ParseLine(key + "=" + val + tail, index, parseFloat)
         == if |Strip(val)| == 0 then Failure(EmptyValue(index))
            else Success(Entry(Strip(key), Coerce(Strip(val), parseFloat)))
  {
    var raw := key + "=" + val + tail;
    if tail == [] {
      assert raw == (key + "=") + val;
      TrimEndAfterKept(key + "=", val, IsSpace);
      var rv := RStrip(val);
      assert RStrip(raw) == key + ['='] + rv;
      assert '=' !in rv by { assert rv == val[..|rv|]; }
      SplitAtFirst(key, '=', rv);
      SplitNoSeparator(rv, '=');
      TrimEndIdempotent(val, IsSpace);
    } else {
      assert raw == (key + "=" + val + "=") + tail[1..];
      TrimEndAfterKept(key + "=" + val + "=", tail[1..], IsSpace);
      var rt := RStrip(tail[1..]);
      assert RStrip(raw) == key + ['='] + (val + ['='] + rt);
      SplitAtFirst(key, '=', val + ['='] + rt);
      SplitAtFirst(val, '=', rt);
    }
  }

  /** Position of the first blank line, or the number of lines when none is. */
  function FirstBlank(lines: seq<string>): (i: nat)
    ensures i <= |lines|
    ensures i < |lines| ==> IsBlank(lines[i])
    ensures forall j :: 0 <= j < i ==> !IsBlank(lines[j])
  {
    if |lines| == 0 || IsBlank(lines[0]) then 0 else 1 + FirstBlank(lines[1..])
  }

  /** Applies a line parser to every line in order; the first line it rejects
      aborts with that line's error, and all lines before it were accepted. */
  function ParseEach(lines: seq<string>, first: nat, parse: (string, nat) -> Result<Entry, ParError>): (r: Result<seq<Entry>, ParError>)
    ensures r.Success? ==> |r.value| == |lines|
    ensures r.Success? ==> forall j :: 0 <= j < |lines| ==> parse(lines[j], first + j) == Success(r.value[j])
    ensures r.Failure? ==> exists j :: && 0 <= j < |lines|
                                        && parse(lines[j], first + j) == Failure(r.error)
                                        && forall i :: 0 <= i < j ==> parse(lines[i], first + i).Success?
    decreases |lines|
  {
    if |lines| == 0 then Success([])
    else
      match parse(lines[0], first)
      case Failure(e) =>
        assert parse(lines[0], first + 0) == Failure(e);
        Failure(e)
      case Success(entry) =>
        var tail := lines[1..];
        var rest := ParseEach(tail, first + 1, parse);
        assert forall j :: 1 <= j < |lines| ==> lines[j] == tail[j - 1];
        match rest
        case Failure(e) =>
          var j :| && 0 <= j < |tail|
                   && parse(tail[j], first + 1 + j) == Failure(e)
                   && forall i :: 0 <= i < j ==> parse(tail[i], first + 1 + i).Success?;
          assert parse(lines[j + 1], first + (j + 1)) == Failure(e);
          assert forall i :: 1 <= i < j + 1 ==> parse(lines[i], first + i).Success?;
          Failure(e)
        case Success(es) =>
          Success([entry] + es)
  }

  /** The loop of `read_pars`: lines are taken in order until the first line
      that is blank after `rstrip` (or the end of the file), and each is
      parsed; a line that cannot be parsed aborts the read. */
  function ScanLines(lines: seq<string>, parseFloat: string -> Option<Double>): Result<seq<Entry>, ParError> {
    ParseEach(lines[..FirstBlank(lines)], 0, (line: string, index: nat) => ParseLine(line, index, parseFloat))
  }

  /** `read_pars` on the lines of a `.par` file: the scanned entries are
      assigned in order to an empty dictionary. */
  function ReadLines(lines: seq<string>, parseFloat: string -> Option<Double>): (r: Result<ParMap, ParError>)
    ensures r.Success? ==> UniqueKeys(r.value)
  {
    var entries :- ScanLines(lines, parseFloat);
    Success(PutAll([], entries))
  }

  /** `read_pars` on the text of a `.par` file: on success every key appears
      once; an error names a line before the first blank one. */
  function ReadPars(text: string, parseFloat: string -> Option<Double>): (r: Result<ParMap, ParError>)
    ensures r.Success? ==> UniqueKeys(r.value)
    ensures r.Failure? ==> r.error.line < FirstBlank(Split(text, '\n'))
  {
    ReadLines(Split(text, '\n'), parseFloat)
  }

  /** Position-wise, the first blank line is where the scan stops. */
  lemma FirstBlankOfPrefix(lines: seq<string>, i: nat)
    requires i < |lines| && IsBlank(lines[i])
    ensures FirstBlank(lines[..i]) == FirstBlank(lines) <= i
  {
    var f := FirstBlank(lines);
    var g := FirstBlank(lines[..i]);
    assert forall j :: 0 <= j < i ==> lines[..i][j] == lines[j];
  }

  /** A blank line ends the file for `read_pars`: nothing after it, however
      well-formed, contributes a key or an error. Whitespace-only lines count
      as blank. */
  lemma ReadLinesStopsAtBlank(lines: seq<string>, i: nat, parseFloat: string -> Option<Double>)
    requires i < |lines| && IsBlank(lines[i])
    ensures ReadLines(lines, parseFloat) == ReadLines(lines[..i], parseFloat)
  {
    FirstBlankOfPrefix(lines, i);
    var f := FirstBlank(lines);
    assert lines[..i][..f] == lines[..f];
  }

  /** Reading text made of newline-free lines reads those lines. */
  lemma ReadParsOfJoin(lines: seq<string>, parseFloat: string -> Option<Double>)
    requires |lines| >= 1
    requires forall i :: 0 <= i < |lines| ==> '\n' !in lines[i]
    ensures ReadPars(Join(lines, '\n'), parseFloat) == ReadLines(lines, parseFloat)
  {
    SplitJoin(lines, '\n');
  }

  /** Reading the text of newline-free lines reads those lines, also when
      there are none (the empty text is a single empty, blank, line). */
  lemma ReadParsOfLines(lines: seq<string>, parseFloat: string -> Option<Double>)
    requires forall i :: 0 <= i < |lines| ==> '\n' !in lines[i]
    ensures ReadPars(Join(lines, '\n'), parseFloat) == ReadLines(lines, parseFloat)
  {
    if |lines| == 0 {
      ReadParsEmpty(parseFloat);
      assert lines[..FirstBlank(lines)] == [];
    } else {
      ReadParsOfJoin(lines, parseFloat);
    }
  }

  /** The empty file reads as the empty dictionary. */
  lemma ReadParsEmpty(parseFloat: string -> Option<Double>)
    ensures ReadPars("", parseFloat) == Success([])
  {
    assert Split("", '\n') == [""];
    assert FirstBlank([""]) == 0;
    assert [""][..0] == [];
  }

  /** Newline-free lines stay newline-free around an inserted line. */
  lemma SingleLines(before: seq<string>, line: string, after: seq<string>)
    requires forall i :: 0 <= i < |before| ==> '\n' !in before[i]
    requires forall i :: 0 <= i < |after| ==> '\n' !in after[i]
    requires '\n' !in line
    ensures forall i :: 0 <= i < |before + [line] + after| ==> '\n' !in (before + [line] + after)[i]
  {
  }

  /** The same at the level of the file text: a blank line and everything
      after it can be cut off without changing what is read. */
  lemma ReadParsStopsAtBlank(before: seq<string>, blank: string, after: seq<string>, parseFloat: string -> Option<Double>)
    requires forall i :: 0 <= i < |before| ==> '\n' !in before[i]
    requires forall i :: 0 <= i < |after| ==> '\n' !in after[i]
    requires '\n' !in blank && IsBlank(blank)
    ensures ReadPars(Join(before + [blank] + after, '\n'), parseFloat) == ReadPars(Join(before, '\n'), parseFloat)
  {
    var lines := before + [blank] + after;
    assert ReadPars(Join(lines, '\n'), parseFloat) == ReadLines(lines, parseFloat) by {
      SingleLines(before, blank, after);
      ReadParsOfJoin(lines, parseFloat);
    }
    assert ReadLines(lines, parseFloat) == ReadLines(before, parseFloat) by {
      ReadLinesStopsAtBlank(lines, |before|, parseFloat);
      assert lines[..|before|] == before;
    }
    ReadParsOfLines(before, parseFloat);
  }

  /** Within one file the last line that names a key gives its value. */
  lemma ReadParsLastWins(text: string, parseFloat: string -> Option<Double>, k: string)
    requires ReadPars(text, parseFloat).Success?
    ensures var entries := ScanLines(Split(text, '\n'), parseFloat).value;
            Lookup(ReadPars(text, parseFloat).value, k) == LastBinding(entries, k)
  {
    var entries := ScanLines(Split(text, '\n'), parseFloat).value;
    PutAllLookup([], entries, k);
  }

  /** `str(v)` as `'{}'.format(v)` prints a value. */
  function FormatValue(v: Value, showFloat: Double -> string): string {
    match v
    case Float(x) => showFloat(x)
    case Str(s) => s
    case Int(i) => DecimalString(i)
  }

  /** `"{:<25} = {}".format(k, v)`: the key, padded with spaces to 25
      characters but never cut, then `" = "`, then the value. */
  function FormatLine(e: Entry, showFloat: Double -> string): string
  {
    LJust(e.key, KeyWidth) + " = " + FormatValue(e.value, showFloat)
  }

  /** The layout of one written line: key, padding to the key column,
      the separator, and the value, character by character. */
  lemma FormatLineLayout(e: Entry, showFloat: Double -> string)
    ensures var line := FormatLine(e, showFloat);
      var w := if |e.key| < KeyWidth then KeyWidth else |e.key|;
      && |line| == w + 3 + |FormatValue(e.value, showFloat)|
      && line[..|e.key|] == e.key
      && (forall i :: |e.key| <= i < w ==> line[i] == ' ')
      && line[w..w + 3] == " = "
      && line[w + 3..] == FormatValue(e.value, showFloat)
  {
  }

  /** The loop of `write_pars`: each entry is written after the separator
      that the previous iteration left behind (none before the first). */
  function WriteLines(m: ParMap, newline: string, showFloat: Double -> string): string
    decreases |m|
  {
    if |m| == 0 then ""
    else newline + FormatLine(m[0], showFloat) + WriteLines(m[1..], "\n", showFloat)
  }

  /** The text `write_pars` writes for a dictionary: its formatted lines joined
      by newlines, with no newline before the first or after the last. */
  function WritePars(m: ParMap, showFloat: Double -> string): (r: string)
    ensures |m| == 0 ==> r == ""
    ensures |m| > 0 ==> r == Join(FormattedLines(m, showFloat), '\n')
  {
    WriteLinesJoin(m, "", showFloat);
    WriteLines(m, "", showFloat)
  }

  function FormattedLines(m: ParMap, showFloat: Double -> string): (lines: seq<string>)
    ensures |lines| == |m|
    ensures forall i :: 0 <= i < |m| ==> lines[i] == FormatLine(m[i], showFloat)
  {
    seq(|m|, i requires 0 <= i < |m| => FormatLine(m[i], showFloat))
  }

  lemma {:induction false} WriteLinesJoin(m: ParMap, nl: string, showFloat: Double -> string)
    ensures WriteLines(m, nl, showFloat) == if |m| == 0 then "" else nl + Join(FormattedLines(m, showFloat), '\n')
    decreases |m|
  {
    if |m| > 0 {
      var ls := FormattedLines(m, showFloat);
      var rest := m[1..];
      WriteLinesJoin(rest, "\n", showFloat);
      assert FormattedLines(rest, showFloat) == ls[1..];
      if |m| == 1 {
        assert WriteLines(m, nl, showFloat) == nl + ls[0];
      } else {
        assert Join(ls, '\n') == ls[0] + ['\n'] + Join(ls[1..], '\n');
        assert WriteLines(m, nl, showFloat) == nl + ls[0] + ("\n" + Join(ls[1..], '\n'));
      }
    }
  }

  /** A line written for an entry without newlines holds no newline. */
  lemma FormatLineOneLine(e: Entry, showFloat: Double -> string)
    requires '\n' !in e.key && '\n' !in FormatValue(e.value, showFloat)
    ensures '\n' !in FormatLine(e, showFloat)
  {
    var padded := LJust(e.key, KeyWidth);
    forall i | 0 <= i < |padded| ensures padded[i] != '\n' {
      if i < |e.key| {
        assert padded[i] == padded[..|e.key|][i];
      }
    }
  }

  /** `write_pars` writes one line per entry, in dictionary order, separated
      by single newlines, with no newline before the first or after the last
      (provided no key or value holds a newline of its own). */
  lemma WriteParsLines(m: ParMap, showFloat: Double -> string)
    requires forall i :: 0 <= i < |m| ==> '\n' !in m[i].key && '\n' !in FormatValue(m[i].value, showFloat)
    ensures |m| == 0 ==> WritePars(m, showFloat) == ""
    ensures |m| > 0 ==> Split(WritePars(m, showFloat), '\n') == FormattedLines(m, showFloat)
  {
    WriteLinesJoin(m, "", showFloat);
    var ls := FormattedLines(m, showFloat);
    assert WritePars(m, showFloat) == if |m| == 0 then "" else Join(ls, '\n');
    if |m| > 0 {
      forall i | 0 <= i < |ls| ensures '\n' !in ls[i] {
        FormatLineOneLine(m[i], showFloat);
      }
      SplitJoin(ls, '\n');
    }
  }

  /** An entry survives writing and reading back when its key has no '=',
      newline or surrounding whitespace and its printed value is non-empty,
      has none of these either, and is typed back into the same value. */
  predicate Rereadable(e: Entry, parseFloat: string -> Option<Double>, showFloat: Double -> string) {
    var t := FormatValue(e.value, showFloat);
    && '=' !in e.key && '\n' !in e.key && Strip(e.key) == e.key
    && '=' !in t && '\n' !in t && |t| > 0 && Strip(t) == t
    && Coerce(t, parseFloat) == e.value
  }

  /** A key padded with spaces strips back to the key. */
  lemma StripPaddedKey(key: string, pad: string)
    requires Strip(key) == key
    requires forall i :: 0 <= i < |pad| ==> pad[i] == ' '
    ensures Strip(key + pad) == key
  {
    TrimEndPadding(key, pad, IsSpace);
  }

  /** A value behind one space strips back to the value. */
  lemma StripSpacedValue(t: string)
    requires |t| > 0 && Strip(t) == t
    ensures Strip(" " + t) == t
  {
    assert !IsSpace(t[0]);
    assert !IsSpace(t[|t| - 1]) by {
      TrimEndIdempotent(t, IsSpace);
    }
    assert TrimEnd(" " + t, IsSpace) == " " + t;
    TrimStartPadding(" ", t, IsSpace);
    assert TrimEnd(t, IsSpace) == t;
  }

  /** Padding an `=`-free key with spaces keeps it `=`-free. */
  lemma PaddedKeyHasNoEquals(key: string, pad: string)
    requires '=' !in key
    requires forall i :: 0 <= i < |pad| ==> pad[i] == ' '
    ensures '=' !in key + pad
  {
    forall i | 0 <= i < |key + pad| ensures (key + pad)[i] != '=' {
      if i < |key| { assert (key + pad)[i] == key[i]; } else { assert (key + pad)[i] == pad[i - |key|]; }
    }
  }

  lemma ParseFormattedLine(e: Entry, index: nat, parseFloat: string -> Option<Double>, showFloat: Double -> string)
    requires Rereadable(e, parseFloat, showFloat)
    ensures ParseLine(FormatLine(e, showFloat), index, parseFloat) == Success(e)
  {
    var t := FormatValue(e.value, showFloat);
    var padded := LJust(e.key, KeyWidth);
    var pad := padded[|e.key|..] + " ";
    assert padded + " " == e.key + pad;
    var left := e.key + pad;
    var right := " " + t;
    assert FormatLine(e, showFloat) == left + "=" + right + [];
    PaddedKeyHasNoEquals(e.key, pad);
    StripPaddedKey(e.key, pad);
    StripSpacedValue(t);
    ParseLineFields(left, right, [], index, parseFloat);
  }

  /** A written line is never blank and parses back to its entry. */
  lemma FormattedLineRereads(e: Entry, index: nat, parseFloat: string -> Option<Double>, showFloat: Double -> string)
    requires Rereadable(e, parseFloat, showFloat)
    ensures !IsBlank(FormatLine(e, showFloat))
    ensures ParseLine(FormatLine(e, showFloat), index, parseFloat) == Success(e)
  {
    FormattedLineNotBlank(e, showFloat);
    ParseFormattedLine(e, index, parseFloat, showFloat);
  }

  /** A written line holds its `=`, so it is never blank. */
  lemma FormattedLineNotBlank(e: Entry, showFloat: Double -> string)
    ensures !IsBlank(FormatLine(e, showFloat))
  {
    var line := FormatLine(e, showFloat);
    var left := LJust(e.key, KeyWidth);
    assert line == left + " = " + FormatValue(e.value, showFloat);
    assert line[|left| + 1] == '=';
    assert !IsSpace(line[|left| + 1]);
  }

  lemma ParseEachAccepts(lines: seq<string>, parse: (string, nat) -> Result<Entry, ParError>, es: seq<Entry>)
    requires |es| == |lines|
    requires forall j :: 0 <= j < |lines| ==> parse(lines[j], j) == Success(es[j])
    ensures ParseEach(lines, 0, parse) == Success(es)
  {
    var r := ParseEach(lines, 0, parse);
    if r.Success? {
      forall j | 0 <= j < |lines| ensures r.value[j] == es[j] {
        assert parse(lines[j], 0 + j) == Success(r.value[j]);
      }
      assert r.value == es;
    }
  }

  lemma {:induction false} ScanFormattedLines(m: ParMap, parseFloat: string -> Option<Double>, showFloat: Double -> string)
    requires forall i :: 0 <= i < |m| ==> Rereadable(m[i], parseFloat, showFloat)
    ensures ScanLines(FormattedLines(m, showFloat), parseFloat) == Success(m)
  {
    var ls := FormattedLines(m, showFloat);
    var parse := (line: string, index: nat) => ParseLine(line, index, parseFloat);
    forall i | 0 <= i < |ls| ensures !IsBlank(ls[i]) && parse(ls[i], i) == Success(m[i]) {
      FormattedLineRereads(m[i], i, parseFloat, showFloat);
    }
    assert FirstBlank(ls) == |ls|;
    assert ls[..|ls|] == ls;
    ParseEachAccepts(ls, parse, m);
  }

  lemma ReadFormattedLines(m: ParMap, parseFloat: string -> Option<Double>, showFloat: Double -> string)
    requires UniqueKeys(m)
    requires forall i :: 0 <= i < |m| ==> Rereadable(m[i], parseFloat, showFloat)
    ensures ReadLines(FormattedLines(m, showFloat), parseFloat) == Success(m)
  {
    ScanFormattedLines(m, parseFloat, showFloat);
    PutAllRebuilds(m);
  }

  /** Reading back what `write_pars` wrote gives the same dictionary, for
      dictionaries whose every entry is rereadable. */
  lemma ReadWritePars(m: ParMap, parseFloat: string -> Option<Double>, showFloat: Double -> string)
    requires UniqueKeys(m)
    requires forall i :: 0 <= i < |m| ==> Rereadable(m[i], parseFloat, showFloat)
    ensures ReadPars(WritePars(m, showFloat), parseFloat) == Success(m)
  {
    if |m| == 0 {
      assert WritePars(m, showFloat) == "";
      ReadParsEmpty(parseFloat);
    } else {
      WriteParsLines(m, showFloat);
      ReadFormattedLines(m, parseFloat, showFloat);
    }
  }
}

=== FILE: pytext.dfy ===
/** The handful of Python `str` operations the parameter codec relies on:
    whitespace classification, `strip`/`rstrip`/`strip('"')`, `split` on one
    character, `join`, `ljust` (the `{:<25}` format) and `str` of an integer. */
module PyText {

  /** Python's `str.isspace` for one character: the ASCII whitespace
      characters, the ASCII separators 0x1C-0x1F, NEL, no-break space and the
      Unicode space separators. */
  predicate IsSpace(c: char) {
    || c == ' '
    || ('\t' <= c <= '\r')
    || ('\U{1C}' <= c <= '\U{1F}')
    || c == '\U{85}' || c == '\U{A0}' || c == '\U{1680}'
    || ('\U{2000}' <= c <= '\U{200A}')
    || c == '\U{2028}' || c == '\U{2029}' || c == '\U{202F}' || c == '\U{205F}' || c == '\U{3000}'
  }

  predicate IsQuote(c: char) {
    c == '"'
  }

  /** Removes the longest prefix made of characters satisfying `drop`. */
  function TrimStart(s: string, drop: char -> bool): (r: string)
    ensures |r| <= |s| && r == s[|s| - |r|..]
    ensures forall i :: 0 <= i < |s| - |r| ==> drop(s[i])
    ensures |r| > 0 ==> !drop(r[0])
  {
    if |s| > 0 && drop(s[0]) then TrimStart(s[1..], drop) else s
  }

  /** Removes the longest suffix made of characters satisfying `drop`. */
  function TrimEnd(s: string, drop: char -> bool): (r: string)
    ensures |r| <= |s| && r == s[..|r|]
    ensures forall i :: |r| <= i < |s| ==> drop(s[i])
    ensures |r| > 0 ==> !drop(r[|r| - 1])
  {
    if |s| > 0 && drop(s[|s| - 1]) then TrimEnd(s[..|s| - 1], drop) else s
  }

  /** `s.rstrip()` */
  function RStrip(s: string): string {
    TrimEnd(s, IsSpace)
  }

  /** `s.strip()` */
  function Strip(s: string): string {
    TrimStart(TrimEnd(s, IsSpace), IsSpace)
  }

  /** `s.strip('"')`: every leading and every trailing double quote goes. */
  function StripQuotes(s: string): string {
    TrimStart(TrimEnd(s, IsQuote), IsQuote)
  }

  /** A line is blank when it holds nothing but whitespace. */
  predicate IsBlank(s: string) {
    forall i :: 0 <= i < |s| ==> IsSpace(s[i])
  }

  /** Blank lines are exactly those that `rstrip` empties. */
  lemma BlankIffRStripEmpty(s: string)
    ensures IsBlank(s) <==> RStrip(s) == ""
  {
    if !IsBlank(s) && RStrip(s) != "" {
      var r := RStrip(s);
      assert !IsSpace(s[|r| - 1]);
    }
  }

  /** Trimming the end twice is trimming it once. */
  lemma TrimEndIdempotent(s: string, drop: char -> bool)
    ensures TrimEnd(TrimEnd(s, drop), drop) == TrimEnd(s, drop)
  {
  }

  /** Trailing characters that are all dropped do not change the trimmed text. */
  lemma {:induction false} TrimEndPadding(x: string, pad: string, drop: char -> bool)
    requires forall i :: 0 <= i < |pad| ==> drop(pad[i])
    ensures TrimEnd(x + pad, drop) == TrimEnd(x, drop)
    decreases |pad|
  {
    if |pad| > 0 {
      var p' := pad[..|pad| - 1];
      assert (x + pad)[..|x + pad| - 1] == x + p';
      TrimEndPadding(x, p', drop);
    } else {
      assert x + pad == x;
    }
  }

  /** Leading characters that are all dropped do not change the trimmed text. */
  lemma {:induction false} TrimStartPadding(pad: string, x: string, drop: char -> bool)
    requires forall i :: 0 <= i < |pad| ==> drop(pad[i])
    ensures TrimStart(pad + x, drop) == TrimStart(x, drop)
    decreases |pad|
  {
    if |pad| > 0 {
      assert (pad + x)[1..] == pad[1..] + x;
      TrimStartPadding(pad[1..], x, drop);
    } else {
      assert pad + x == x;
    }
  }

  /** Trimming the end of `x + y`, where `x` ends in a kept character, only
      trims `y`. */
  lemma {:induction false} TrimEndAfterKept(x: string, y: string, drop: char -> bool)
    requires |x| > 0 && !drop(x[|x| - 1])
    ensures TrimEnd(x + y, drop) == x + TrimEnd(y, drop)
    decreases |y|
  {
    if |y| == 0 {
      assert x + y == x;
    } else if drop(y[|y| - 1]) {
      var y' := y[..|y| - 1];
      assert (x + y)[..|x + y| - 1] == x + y';
      TrimEndAfterKept(x, y', drop);
    }
  }

  /** `s.split(sep)`: always at least one piece, no piece holds `sep`, and the
      pieces joined with `sep` give back `s`. */
  function Split(s: string, sep: char): (parts: seq<string>)
    ensures |parts| >= 1
    ensures forall i :: 0 <= i < |parts| ==> sep !in parts[i]
    ensures Join(parts, sep) == s
  {
    if |s| == 0 then [""]
    else
      var rest := Split(s[1..], sep);
      if s[0] == sep then [""] + rest
      else
        assert Join(rest, sep) == rest[0] + (if |rest| == 1 then "" else [sep] + Join(rest[1..], sep));
        [[s[0]] + rest[0]] + rest[1..]
  }

  /** `sep.join(parts)` */
  function Join(parts: seq<string>, sep: char): string {
    if |parts| == 0 then ""
    else if |parts| == 1 then parts[0]
    else parts[0] + [sep] + Join(parts[1..], sep)
  }

  lemma {:induction false} SplitNoSeparator(s: string, sep: char)
    requires sep !in s
    ensures Split(s, sep) == [s]
    decreases |s|
  {
    if |s| > 0 {
      SplitNoSeparator(s[1..], sep);
      assert [s[0]] + s[1..] == s;
    }
  }

  /** Splitting stops the first piece at the first separator. */
  lemma {:induction false} SplitAtFirst(a: string, sep: char, b: string)
    requires sep !in a
    ensures Split(a + [sep] + b, sep) == [a] + Split(b, sep)
    decreases |a|
  {
    if |a| == 0 {
      assert (a + [sep] + b)[1..] == b;
    } else {
      assert (a + [sep] + b)[1..] == a[1..] + [sep] + b;
      SplitAtFirst(a[1..], sep, b);
      assert [a[0]] + a[1..] == a;
    }
  }

  /** Splitting undoes joining when no piece holds the separator. */
  lemma {:induction false} SplitJoin(parts: seq<string>, sep: char)
    requires |parts| >= 1
    requires forall i :: 0 <= i < |parts| ==> sep !in parts[i]
    ensures Split(Join(parts, sep), sep) == parts
    decreases |parts|
  {
    if |parts| == 1 {
      SplitNoSeparator(parts[0], sep);
    } else {
      SplitJoin(parts[1..], sep);
      SplitAtFirst(parts[0], sep, Join(parts[1..], sep));
      assert [parts[0]] + parts[1..] == parts;
    }
  }

  /** `n` spaces. */
  function Spaces(n: nat): (r: string)
    ensures |r| == n
    ensures forall i :: 0 <= i < n ==> r[i] == ' '
  {
    seq(n, _ => ' ')
  }

  /** `'{:<w}'.format(s)`: pads on the right to width `w`, never truncates. */
  function LJust(s: string, width: nat): (r: string)
    ensures |r| == if |s| < width then width else |s|
    ensures r[..|s|] == s
    ensures forall i :: |s| <= i < |r| ==> r[i] == ' '
  {
    if |s| < width then s + Spaces(width - |s|) else s
  }

  predicate IsDigit(c: char) {
    '0' <= c <= '9'
  }

  function DigitChar(d: nat): (c: char)
    requires d < 10
    ensures IsDigit(c) && c as int - '0' as int == d
  {
    (48 + d) as char
  }

  /** The number a string of decimal digits denotes. */
  function DigitsValue(s: string): nat
    requires forall i :: 0 <= i < |s| ==> IsDigit(s[i])
  {
    if |s| == 0 then 0
    else
      assert IsDigit(s[|s| - 1]);
      DigitsValue(s[..|s| - 1]) * 10 + (s[|s| - 1] as int - '0' as int)
  }

  /** Decimal digits of `n` without leading zeros; they denote `n`. */
  function Digits(n: nat): (r: string)
    ensures |r| >= 1
    ensures forall i :: 0 <= i < |r| ==> IsDigit(r[i])
    ensures r[0] == '0' ==> n == 0
    ensures |r| == 1 <==> n < 10
    ensures DigitsValue(r) == n
  {
    if n < 10 then [DigitChar(n)]
    else
      var r := Digits(n / 10) + [DigitChar(n % 10)];
      assert r[..|r| - 1] == Digits(n / 10);
      r
  }

  /** `str(i)` for a Python int: optional minus sign, then the digits,
      with no leading zero unless the number is 0. */
  function DecimalString(i: int): (r: string)
    ensures |r| >= 1
    ensures i >= 0 && |r| > 1 ==> r[0] != '0'
    ensures i < 0 ==> |r| > 1 && r[1] != '0'
    ensures i >= 0 ==> (forall k :: 0 <= k < |r| ==> IsDigit(r[k])) && DigitsValue(r) == i
    ensures i < 0 ==> r[0] == '-' && (forall k :: 1 <= k < |r| ==> IsDigit(r[k])) && DigitsValue(r[1..]) == -i
  {
    if i >= 0 then Digits(i)
    else
      var r := "-" + Digits(-i);
      assert r[1..] == Digits(-i);
      r
  }
}

=== FILE: results.dfy ===
/** Failure-compatible wrappers shared by the codecs: `Option` for values that
    may be absent and `Result` for operations that the Python code aborts with
    an exception. */
module Results {

  datatype Option<+T> = None | Some(value: T)

  datatype Result<+T, +E> = Success(value: T) | Failure(error: E) {

    predicate IsFailure() {
      Failure?
    }

    function PropagateFailure<U>(): Result<U, E>
      requires Failure?
    {
      Failure(error)
    }

    function Extract(): T
      requires Success?
    {
      value
    }
  }
}

=== FILE: words.dfy ===
/** Bytes and 32-bit words: the on-disk unit of the Spinsolve binary file.
    A word is four bytes, least significant first (little-endian) or most
    significant first (big-endian); signed words are two's complement. */
module Words {
  import opened Floats

  type byte = x: int | 0 <= x < 0x100
  type int32 = x: int | -0x8000_0000 <= x < 0x8000_0000

  const Word32: int := 0x1_0000_0000

  /** The four bytes of `u`, in the requested byte order. */
  function EncodeWord(u: uint32, big: bool): (b: seq<byte>)
    ensures |b| == 4
  {
    var q1 := u / 0x100;
    var q2 := q1 / 0x100;
    var le := [u % 0x100, q1 % 0x100, q2 % 0x100, q2 / 0x100];
    if big then [le[3], le[2], le[1], le[0]] else le
  }

  /** The word made of a least significant byte and the remaining bits. */
  function Compose(low: byte, high: int): int {
    low + 0x100 * high
  }

  /** Splitting a number into its lowest byte and the rest is unique. */
  lemma ComposeSplit(low: byte, high: int)
    ensures Compose(low, high) % 0x100 == low
    ensures Compose(low, high) / 0x100 == high
  {
  }

  /** The word whose bytes, in the requested order, are `b`. */
  function DecodeWord(b: seq<byte>, big: bool): uint32
    requires |b| == 4
  {
    var le := if big then [b[3], b[2], b[1], b[0]] else b;
    Compose(le[0], Compose(le[1], Compose(le[2], le[3])))
  }

  /** Decoding undoes encoding. */
  lemma DecodeEncodeWord(u: uint32, big: bool)
    ensures DecodeWord(EncodeWord(u, big), big) == u
  {
    var q1 := u / 0x100;
    var q2 := q1 / 0x100;
    assert q1 == Compose(q1 % 0x100, q2);
    assert u == Compose(u % 0x100, q1);
    assert q2 == Compose(q2 % 0x100, q2 / 0x100);
  }

  /** Encoding undoes decoding: every four bytes are the encoding of a word. */
  lemma EncodeDecodeWord(b: seq<byte>, big: bool)
    requires |b| == 4
    ensures EncodeWord(DecodeWord(b, big), big) == b
  {
    var le := if big then [b[3], b[2], b[1], b[0]] else b;
    var h2 := Compose(le[2], le[3]);
    var h1 := Compose(le[1], h2);
    ComposeSplit(le[2], le[3]);
    ComposeSplit(le[1], h2);
    ComposeSplit(le[0], h1);
  }

  /** The signed reading of a word (`int32` view of the same bits). */
  function ToSigned(u: uint32): (i: int32)
    ensures (i - u) % Word32 == 0
  {
    if u < 0x8000_0000 then u else u - Word32
  }

  /** The bits of a signed word. */
  function FromSigned(i: int32): (u: uint32)
    ensures (i - u) % Word32 == 0
  {
    if i < 0 then i + Word32 else i
  }

  lemma SignedRoundTrip(u: uint32, i: int32)
    ensures FromSigned(ToSigned(u)) == u
    ensures ToSigned(FromSigned(i)) == i
  {
  }

  /** `numpy.frombuffer(b, dtype)` for a 4-byte dtype in native
      (little-endian) order: consecutive words. */
  function DecodeAll(b: seq<byte>): (ws: seq<uint32>)
    requires |b| % 4 == 0
    ensures |ws| == |b| / 4
    ensures forall k :: 0 <= k < |ws| ==> ws[k] == DecodeWord(b[4 * k..4 * k + 4], false)
    decreases |b|
  {
    if |b| == 0 then [] else [DecodeWord(b[..4], false)] + DecodeAll(b[4..])
  }

  /** Bytes of consecutive words in the requested order (`tostring()` of an
      `i4` array). */
  function EncodeAll(ws: seq<uint32>, big: bool): (b: seq<byte>)
    ensures |b| == 4 * |ws|
    ensures forall k :: 0 <= k < |ws| ==> b[4 * k..4 * k + 4] == EncodeWord(ws[k], big)
    decreases |ws|
  {
    if |ws| == 0 then [] else EncodeWord(ws[0], big) + EncodeAll(ws[1..], big)
  }

  /** Encoding distributes over concatenation of word sequences. */
  lemma {:induction false} EncodeAllAppend(a: seq<uint32>, c: seq<uint32>, big: bool)
    ensures EncodeAll(a + c, big) == EncodeAll(a, big) + EncodeAll(c, big)
    decreases |a|
  {
    if |a| == 0 {
      assert a + c == c;
    } else {
      assert (a + c)[1..] == a[1..] + c;
      EncodeAllAppend(a[1..], c, big);
    }
  }

  /** Reading back little-endian words gives the words that were written. */
  lemma DecodeAllEncodeAll(ws: seq<uint32>)
    ensures DecodeAll(EncodeAll(ws, false)) == ws
  {
    var b := EncodeAll(ws, false);
    assert |b| % 4 == 0;
    forall k | 0 <= k < |ws| ensures DecodeAll(b)[k] == ws[k] {
      DecodeEncodeWord(ws[k], false);
    }
  }
}
